=== FILE: README.md ===
# rwnd receive-window fairness enforcer, in Dafny

This project models the run-time control plane of rwnd. The enforcer makes the
receiver of TCP flows throttle unfair senders by overwriting the receive window
(RWND) they see. A shared map `flow_to_rwnd`, from flow to window, is read by an
eBPF egress hook. The model has four parts, each proved against its own
specification.

- **Reaction strategies and the static RWND schedule**
  (`ratemon/runtime/python/reaction_strategy.py`). These are the AIMD and MIMD
  laws that move a window target up or down, and the strategies' names. They also
  include the CSV schedule parser and the lookup of the window in force at a given
  time. Modules `ReactionStrategy`, `Text` and `Sorting`.
- **The split-process inference worker** (`unfair/runtime/inference.py`).
  - Each batch of packets is sorted by arrival time and featurized, keeping the
    last 10 rows.
  - It is then classified and condensed to the last label.
  - A decision is made, and is written to or deleted from `flow_to_rwnd`.
  - Finally the flow's in-flight flag is cleared.

  Module `InferenceWorker` holds the class `Worker`, whose loop is proved against
  the function `Run`.
- **The single-process threaded monitor** (`unfair/runtime/unfair_runtime.py`).
  - A flow table fed by packet ingest that uses try-locks.
  - The periodic `check_flows` pass: it selects flows, garbage-collects stale
    ones, and checks the ready ones.
  - The per-flow check.
  - The little-endian IPv4 string/integer conversions.

  Modules `Monitor` (class `Monitor`) and `Addresses`.
- **The round-robin flow scheduler** (`ratemon/runtime/libratemon_interp.cpp`).
  - `accept` places a new connection in the active or the paused queue.
  - `close` forgets a connection.
  - Each scheduling epoch activates up to `max_active_flows` paused connections
    and pauses all the previously active ones.

  Module `Scheduler` (class `Scheduler`).

`Base` holds the shared pieces:
- the error and option types;
- Python's `round` (ties to even);
- the `c_uint32` and `c_int` conversions, which wrap;
- the slice `s[-n:]`.

`Fairness` holds the values both monitors share.

Things the code does not compute itself are parameters of the model:
- the clock (`now`);
- the lock outcomes (boolean inputs);
- the feature pipeline and the classifier (function parameters);
- the BDP estimate;
- the `float`/`int` conversions of schedule tokens;
- the socket calls of the scheduler (an `AcceptInputs` value);
- the schedule file, given as its lines (`lines: seq<string>`).

Each imperative operation of the source is a method. Each method is proved equal
to a specification function, and the properties are proved about that function.

## Where the code and its description differ

The model follows the code in every case below.

- **`get_static_rwnd`** (reaction_strategy.py:102-103) drops every entry that
  starts strictly before `now`, but keeps at least one. It therefore returns the
  upcoming entry, or else the last one, not the entry currently in force.
  - `ReactionStrategy.GetStaticRwndIsUpcoming` states this.
  - `ReactionStrategy.ScheduleScenarioLookup` shows the schedule `0,1000` /
    `5,2000` answering 2000 two seconds in.
- **The "already paced" tests** at inference.py:107 and unfair_runtime.py:315
  compare the stored `(Decision, value)` tuple with the bare enum member. The
  comparison is never true (`Fairness.StoredIsBarePaced`). As written, every label
  other than ABOVE_FAIR yields NOT_PACED.
  - `InferenceWorker.DecisionAsWritten` states this.
  - `InferenceWorker.DecisionTableIntended` shows the table a PACED-kind test
    would give.
  - The rest of the model uses the comparison as written.
- **In the threaded monitor's `make_decision`**, the parameter `reaction_strategy`
  is the configured strategy's name, a string. It hides the module, so looking up
  `react_down` or `react_up` on it raises AttributeError (unfair_runtime.py:294,
  311, 322).
  - A change to NOT_PACED reaches `round(None)`, which raises TypeError
    (unfair_runtime.py:335-338).
  - So the monitor never writes a window (`Monitor.MonitorNeverWrites`).
- **The monitor's garbage collection** deletes the flow from `flow_to_rwnd` with
  `del` (unfair_runtime.py:237). Because no window is ever written, collecting any
  checked stale flow raises KeyError (`Monitor.CollectingUnpacedFlowFails`).
  - A flow that was never checked is never collected, because its
    `latest_time_sec` stays 0 (`Monitor.NeverCheckedNeverRemoved`).
- **In the scheduler's activation loop** (libratemon_interp.cpp:105-113), a paused
  descriptor that `close` has forgotten is never popped, so the loop spins forever.
  - `close` leaves the queues alone (:298-303).
  - `Scheduler.ClosedHeadStalls` shows that one `close` is enough. The model ends
    the epoch with the outcome `Stuck`.

## Model

| member | source | states |
|---|---|---|
| Base.RoundHalfEven | unfair/runtime/inference.py:136 | Python `round`: the result is within 1/2 of the input, and an exact tie goes to the even integer |
| Base.U32 | unfair/runtime/inference.py:145 | `ctypes.c_uint32` keeps the value modulo 2^32, in [0, 2^32), and leaves values already in range alone |
| Base.I32 | unfair/runtime/unfair_runtime.py:336-338 | `ctypes.c_int` keeps the value modulo 2^32, in [-2^31, 2^31), and leaves values already in range alone |
| Base.LastN | unfair/runtime/unfair_runtime.py:363-364 | the slice `[-n:]`: the last min(n, len) elements, as a suffix of the input |
| Text.Split | ratemon/runtime/python/reaction_strategy.py:81 | `str.split(sep)`: at least one piece, no piece holds the separator, and joining the pieces with it gives back the input |
| Text.SplitJoin | ratemon/runtime/python/reaction_strategy.py:81 | splitting a join of separator-free pieces gives back the pieces |
| Text.Strip | ratemon/runtime/python/reaction_strategy.py:78 | `str.strip()`: the longest infix of the input without leading or trailing whitespace, and only whitespace is cut |
| Text.NatToDec | unfair/runtime/unfair_runtime.py:81 | the canonical decimal digits of a number, whose value is that number |
| Text.DecRoundTrip | unfair/runtime/unfair_runtime.py:81 | printing the value of a canonical decimal string gives back the string |
| Text.NatToDecInjective | unfair/runtime/unfair_runtime.py:81 | different numbers print differently |
| Sorting.Insert | ratemon/runtime/python/reaction_strategy.py:92 | inserting into a sorted sequence keeps it sorted and adds exactly the element |
| Sorting.SortBy | unfair/runtime/inference.py:154 | `sorted(key=...)`: a permutation of the input, ordered by key |
| Sorting.SortByIsStable | unfair/runtime/inference.py:154 | elements with equal keys keep their relative order, as Python's sort guarantees |
| Sorting.SortBySortedIsIdentity | unfair/runtime/inference.py:154 | a sequence already sorted by key is unchanged |
| Sorting.SortByIdempotent | ratemon/runtime/python/reaction_strategy.py:92 | sorting twice is sorting once |
| Sorting.SortByDeterminedByKeys | unfair/runtime/inference.py:154 | two inputs with the same elements per key, in the same order, sort identically |
| ReactionStrategy.ToStr | ratemon/runtime/python/reaction_strategy.py:22-26 | AIMD and MIMD have a name; any other strategy raises KeyError |
| ReactionStrategy.ToStrat | ratemon/runtime/python/reaction_strategy.py:29-33 | exactly "aimd" and "mimd" convert; any other string raises KeyError |
| ReactionStrategy.StrategyRoundTrip | ratemon/runtime/python/reaction_strategy.py:15-19 | `to_strat(to_str(s)) == s` for both strategies |
| ReactionStrategy.NameRoundTrip | ratemon/runtime/python/reaction_strategy.py:15-33 | `to_str(to_strat(x)) == x` for every name that converts |
| ReactionStrategy.Choices | ratemon/runtime/python/reaction_strategy.py:14-38 | `choices()` is exactly `["aimd", "mimd"]`, in that order |
| ReactionStrategy.ReactUp | ratemon/runtime/python/reaction_strategy.py:41-50 | AIMD adds 1e6 and MIMD multiplies by 1.3; the result is above a positive input; any other strategy raises RuntimeError |
| ReactionStrategy.ReactDown | ratemon/runtime/python/reaction_strategy.py:53-61 | AIMD halves and MIMD divides by 1.75; the result stays between 0 and a positive input; any other strategy raises RuntimeError |
| ReactionStrategy.ReactMonotone | ratemon/runtime/python/reaction_strategy.py:41-61 | both laws are monotone in the current value |
| ReactionStrategy.ReactBrackets | ratemon/runtime/python/reaction_strategy.py:41-61 | for a positive value, down < value < up, and down stays positive |
| ReactionStrategy.ParseLine | ratemon/runtime/python/reaction_strategy.py:78-89 | one stripped line: an empty line is IndexError, a `#` line is skipped, a line not of exactly two comma tokens fails the assertion, and an entry's start is `now` plus the parsed offset |
| ReactionStrategy.ParsedEntriesFromLines | ratemon/runtime/python/reaction_strategy.py:77-87 | every parsed entry comes from some line of the file |
| ReactionStrategy.FirstErrorSticks | ratemon/runtime/python/reaction_strategy.py:77-89 | once a line fails, the parse fails with that line's error |
| ReactionStrategy.ParseStaticRwndSchedule | ratemon/runtime/python/reaction_strategy.py:64-92 | the loop yields the parse of the whole file; on success it is non-empty, sorted by start time, and a permutation of the parsed entries; an empty parse fails the assertion |
| ReactionStrategy.Prune | ratemon/runtime/python/reaction_strategy.py:102-103 | the loop leaves a non-empty suffix, and every entry it drops started before `now` |
| ReactionStrategy.GetStaticRwnd | ratemon/runtime/python/reaction_strategy.py:95-104 | an empty schedule fails the assertion; otherwise the answer is the window of one of the entries |
| ReactionStrategy.GetStaticRwndIsUpcoming | ratemon/runtime/python/reaction_strategy.py:100-104 | the answer is the first entry starting at or after `now`, or else the last entry |
| ReactionStrategy.ParseDataLine | ratemon/runtime/python/reaction_strategy.py:78-87 | a well-formed data line parses to its entry, offset by `now` |
| ReactionStrategy.TwoOrderedLines | ratemon/runtime/python/reaction_strategy.py:87-92 | two data lines already in time order give a schedule in file order |
| ReactionStrategy.ScheduleScenarioParse | ratemon/runtime/python/reaction_strategy.py:74-92 | the file `0,1000` / `5,2000` parsed at `t0` gives the entries at `t0` and `t0 + 5` |
| ReactionStrategy.ScheduleScenarioLookup | ratemon/runtime/python/reaction_strategy.py:100-104 | that schedule answers 1000 at `t0`, and 2000 at `t0 + 2` and at `t0 + 6` |
| Fairness.StoredIsBarePaced | unfair/runtime/inference.py:107 | a stored decision tuple never equals the bare PACED member |
| Fairness.CondenseLabels | unfair/runtime/inference.py:68-76 | an empty list fails the assertion; otherwise the result is the last label |
| Fairness.CondenseIgnoresHistory | unfair/runtime/unfair_runtime.py:343-351 | labels before the last one do not affect the result |
| Addresses.LeBytes | unfair/runtime/unfair_runtime.py:81 | `struct.pack("<L")`: four bytes, least significant first, that pack back to the number |
| Addresses.LeBytesPack | unfair/runtime/unfair_runtime.py:29 | `struct.unpack("<L")` of four bytes is in range, and packing it again gives the bytes |
| Addresses.IpStrToInt | unfair/runtime/unfair_runtime.py:27-29 | a dotted quad of four octets 0-255 converts to a 32-bit value, the first octet least significant; anything else is an OSError |
| Addresses.IntToIpStr | unfair/runtime/unfair_runtime.py:77-81 | exactly the 32-bit values convert; anything else is a struct.error |
| Addresses.IntRoundTrip | unfair/runtime/unfair_runtime.py:27-29 | `ip_str_to_int(int_to_ip_str(n)) == n` for every 32-bit n |
| Addresses.StrRoundTrip | unfair/runtime/unfair_runtime.py:77-81 | `int_to_ip_str(ip_str_to_int(s)) == s` for every dotted quad that converts |
| Addresses.IpStrToIntInjective | unfair/runtime/unfair_runtime.py:27-29 | different dotted quads convert to different integers |
| Addresses.LocalhostValue | unfair/runtime/unfair_runtime.py:32 | `LOCALHOST` is 16777343, and it prints as 127.0.0.1 |
| Addresses.IntToDecRoundTrip | unfair/runtime/unfair_runtime.py:87 | a port printed in decimal reads back as the same number |
| Addresses.FlowToStr | unfair/runtime/unfair_runtime.py:84-87 | `flow_to_str` renders "saddr:sport -> daddr:dport"; addresses out of range raise struct.error |
| Addresses.FlowStrIsJoin | unfair/runtime/unfair_runtime.py:84-87 | the rendering is the three words "saddr:sport", "->" and "daddr:dport" joined by spaces |
| Addresses.FlowStrRoundTrip | unfair/runtime/unfair_runtime.py:84-87 | the rendering can be parsed back to the four-tuple |
| Addresses.FlowToStrInjective | unfair/runtime/unfair_runtime.py:84-87 | different four-tuples render differently |
| InferenceWorker.PacketsToArray | unfair/runtime/inference.py:150-174 | an empty batch is a ValueError (unpacking `zip()`); otherwise a permutation of the batch sorted by arrival time |
| InferenceWorker.PresortedBatchSameArray | unfair/runtime/inference.py:154 | sorting a batch by arrival time beforehand does not change the array the conversion builds |
| InferenceWorker.FeaturizeKeepsLatestRows | unfair/runtime/inference.py:24-37 | the classifier sees the last min(10, n) feature rows in their original order, with the featurizer's minimum RTT |
| InferenceWorker.NewDecision | unfair/runtime/inference.py:90-126 | the FILE strategy paces at the scheduled value; only a failing reaction law raises, with RuntimeError; the decision stays consistent (PACED with a value, NOT_PACED without) |
| InferenceWorker.AboveFairPacesDown | unfair/runtime/inference.py:98-106 | ABOVE_FAIR always gives PACED at `react_down(bdp)` |
| InferenceWorker.DecisionAsWritten | unfair/runtime/inference.py:107-126 | as written, every other label gives NOT_PACED, including for a flow already paced |
| InferenceWorker.DecisionTableIntended | unfair/runtime/inference.py:98-126 | with a PACED-kind test the table would be: down when above fair, up when below fair, kept when about fair, NOT_PACED when unpaced |
| InferenceWorker.Commit | unfair/runtime/inference.py:131-147 | no write unless the decision changed; a missing window raises KeyError on delete; an error writes nothing; a written window is in [0, 2^32); other flows are untouched |
| InferenceWorker.CommitPacedChange | unfair/runtime/inference.py:135-147 | a changed paced value is rounded, asserted positive, written as `c_uint32` and stored rounded |
| InferenceWorker.CommitNotPacedChange | unfair/runtime/inference.py:133-134 | a change to NOT_PACED deletes the window and stores the decision |
| InferenceWorker.DecideStep | unfair/runtime/inference.py:79-147 | `make_decision` changes only the flow's own decision and window, and leaves RTTs and flags alone |
| InferenceWorker.AfterClassify | unfair/runtime/inference.py:279-305 | an assertion failure skips the batch unchanged; any other failure is fatal; on success the flow's minimum RTT is updated |
| InferenceWorker.Infer | unfair/runtime/inference.py:275-278 | classifying a batch leaves other flows' decisions, windows and minimum RTTs, and all flags, alone |
| InferenceWorker.NonBatchIgnored | unfair/runtime/inference.py:262-270 | timeouts and non-tuple values change nothing |
| InferenceWorker.FlagClearedAfterBatch | unfair/runtime/inference.py:306-308 | every non-empty batch ends with its flag set to 0, or with KeyError when it has no flag |
| InferenceWorker.EmptyBatchFatal | unfair/runtime/inference.py:274 | an empty batch raises ValueError before the `try`, so nothing changes |
| InferenceWorker.MinRttUpdatedOnSuccess | unfair/runtime/inference.py:257-277 | the minimum RTT defaults to `sys.maxsize` and takes the featurizer's value only when inference succeeds |
| InferenceWorker.AssertionFailureSkipsDecision | unfair/runtime/inference.py:279-286 | an assertion failure leaves decisions and windows as they were |
| InferenceWorker.ProcessTouchesOneFlow | unfair/runtime/inference.py:262-308 | one message changes only its own flow's entries |
| InferenceWorker.PresortedBatchSameStep | unfair/runtime/inference.py:154-174 | pre-sorting a batch by arrival time changes nothing: the worker ends in the same state with the same output |
| InferenceWorker.CommitKeepsWellFormed | unfair/runtime/inference.py:131-147 | committing keeps every stored decision consistent with a positive whole value, and keeps a window for every PACED flow |
| InferenceWorker.CommitNeverMissesWindow | unfair/runtime/inference.py:133-134 | in a well-formed state the delete never raises KeyError |
| InferenceWorker.DecideStepNeverMissesWindow | unfair/runtime/inference.py:79-147 | hence `make_decision` never raises KeyError from a well-formed state |
| InferenceWorker.DecideStepKeepsWellFormed | unfair/runtime/inference.py:79-147 | `make_decision` keeps the state well formed |
| InferenceWorker.AfterClassifyKeepsWellFormed | unfair/runtime/inference.py:279-305 | every classifier outcome keeps the state well formed |
| InferenceWorker.InferKeepsWellFormed | unfair/runtime/inference.py:275-305 | classifying a batch keeps the state well formed |
| InferenceWorker.ProcessKeepsWellFormed | unfair/runtime/inference.py:262-308 | every message keeps the state well formed |
| InferenceWorker.RunKeepsWellFormed | unfair/runtime/inference.py:261-308 | however the loop ends, the state is well formed |
| InferenceWorker.Worker.constructor | unfair/runtime/inference.py:257-258 | both defaultdicts start empty, over the shared window map and flags |
| InferenceWorker.Worker.MakeDecision | unfair/runtime/inference.py:79-147 | the in-place updates equal `DecideStep` |
| InferenceWorker.Worker.AfterClassification | unfair/runtime/inference.py:279-305 | the in-place updates equal `AfterClassify` |
| InferenceWorker.Worker.HandleMessage | unfair/runtime/inference.py:262-308 | one pass of the loop body equals `Process` |
| InferenceWorker.Worker.InferenceLoop | unfair/runtime/inference.py:261-308 | the loop equals `Run`, stops at the first fatal error, and keeps the state well formed |
| InferenceWorker.AboveFairScenario | unfair/runtime/inference.py:98-147 | ABOVE_FAIR under AIMD with a BDP of 100000 paces at 50000 and writes 50000 |
| InferenceWorker.ApproxFairUnpacesAsWritten | unfair/runtime/inference.py:107-134 | as written, a flow paced at 50000 and then labelled APPROX_FAIR is unpaced and loses its window |
| Monitor.AfterReceive | unfair/runtime/unfair_runtime.py:111-168 | receiving a packet never touches `flow_to_rwnd` and keeps the table well formed (one record per listed four-tuple) |
| Monitor.ReceiveIgnores | unfair/runtime/unfair_runtime.py:121-134 | once `done` is set, or for loopback traffic, nothing happens |
| Monitor.ReceiveCreatesOnce | unfair/runtime/unfair_runtime.py:151-157 | with the table lock, a record is created only for an unseen four-tuple, at the end of the order; apart from its packets the record is a fresh one or the old one |
| Monitor.ReceiveAppendsOrDrops | unfair/runtime/unfair_runtime.py:151-168 | the packet is appended to its own flow only when both try-locks succeed, and dropped otherwise |
| Monitor.ToCheckMembers | unfair/runtime/unfair_runtime.py:213-221 | a flow is selected for checking iff its lock is free and it holds at least `limit` packets |
| Monitor.ToRemoveMembers | unfair/runtime/unfair_runtime.py:213-227 | a flow is selected for removal iff its lock is free, it has fewer than `limit` packets, and it was last checked more than 300 s ago |
| Monitor.NeverCheckedNeverRemoved | unfair/runtime/unfair_runtime.py:222-223 | a flow with `latest_time_sec == 0` is never selected for removal |
| Monitor.SelectionsDisjoint | unfair/runtime/unfair_runtime.py:213-231 | the two selections are duplicate-free and disjoint |
| Monitor.Without | unfair/runtime/unfair_runtime.py:236 | removing a key from the table's order keeps exactly the other keys |
| Monitor.WithoutNoDup | unfair/runtime/unfair_runtime.py:236 | that removal keeps the order duplicate-free |
| Monitor.Collect | unfair/runtime/unfair_runtime.py:234-237 | collection only deletes entries and changes no kept value; its only error is KeyError |
| Monitor.CollectRemovesFromBoth | unfair/runtime/unfair_runtime.py:234-237 | a completed collection removes each listed flow from both `flows` and `flow_to_rwnd`, and nothing else |
| Monitor.CollectKeepsValid | unfair/runtime/unfair_runtime.py:234-237 | collection keeps the table well formed |
| Monitor.MonitorDecision | unfair/runtime/unfair_runtime.py:305-333 | ABOVE_FAIR raises AttributeError (the strategy is a string); a result is the stored decision or NOT_PACED |
| Monitor.MonitorWrite | unfair/runtime/unfair_runtime.py:335-338 | nothing is written iff the decision is unchanged; a change to no value raises TypeError; a write is a signed 32-bit value |
| Monitor.MonitorNeverWrites | unfair/runtime/unfair_runtime.py:305-338 | no decision the monitor computes leads to a window write |
| Monitor.CheckFlowSpec | unfair/runtime/unfair_runtime.py:354-381 | the check keeps at most 100 packets; on success it clears them, stamps `now` and leaves the flow unpaced or as it was |
| Monitor.CheckFlowTruncatesAndStamps | unfair/runtime/unfair_runtime.py:363-368 | past the empty test the last 100 packets are kept, the check time is stamped and the featurizer's minimum RTT is stored, whatever follows, even when the classifier fails |
| Monitor.CheckFlowOutcome | unfair/runtime/unfair_runtime.py:371-381 | the last label is stored in every case and an unpaced flow stays unpaced; ABOVE_FAIR then ends in AttributeError with the truncated packets kept; any other label clears the packets |
| Monitor.CheckFlowState | unfair/runtime/unfair_runtime.py:354-381 | checking one flow changes only its record and keeps the table well formed |
| Monitor.CheckAll | unfair/runtime/unfair_runtime.py:240-252 | the checking pass leaves `flow_to_rwnd` and the order alone and keeps the table well formed |
| Monitor.CheckFlowsOnlyDeletesWindows | unfair/runtime/unfair_runtime.py:201-252 | a whole pass keeps the table well formed and only ever deletes windows |
| Monitor.CollectingUnpacedFlowFails | unfair/runtime/unfair_runtime.py:234-237 | a flow due for removal with no window ends the pass with KeyError |
| Monitor.Monitor.constructor | unfair/runtime/unfair_runtime.py:460 | the table starts empty and well formed, over the shared window map |
| Monitor.Monitor.ReceivePacket | unfair/runtime/unfair_runtime.py:111-168 | the in-place update equals `AfterReceive` |
| Monitor.Monitor.CheckFlow | unfair/runtime/unfair_runtime.py:354-381 | the in-place update equals `CheckFlowState` |
| Monitor.Monitor.SelectFlows | unfair/runtime/unfair_runtime.py:211-231 | the selection loop builds exactly `ToCheck` and `ToRemove` |
| Monitor.Monitor.CollectFlows | unfair/runtime/unfair_runtime.py:234-237 | the removal loop equals `Collect` |
| Monitor.Monitor.CheckSelected | unfair/runtime/unfair_runtime.py:240-252 | the checking loop equals `CheckAll` |
| Monitor.Monitor.CheckFlows | unfair/runtime/unfair_runtime.py:201-252 | one pass equals `CheckFlowsSpec` and keeps the table well formed |
| Scheduler.AcceptSpec | ratemon/runtime/libratemon_interp.cpp:158-279 | `accept` returns -1 or the new descriptor, and never makes more than `max_active_flows` active |
| Scheduler.AcceptRefuses | ratemon/runtime/libratemon_interp.cpp:159-183 | when either environment variable reads as 0 `accept` returns -1 and tracks nothing; a non-AF_INET connection is returned untracked |
| Scheduler.AcceptSkipsFirst | ratemon/runtime/libratemon_interp.cpp:207-214 | the first connection while nothing is tracked is returned untracked and sets `skipped_first` |
| Scheduler.AcceptPlaces | ratemon/runtime/libratemon_interp.cpp:254-278 | a tracked connection joins the active queue while fewer than `max_active_flows` are active, leaving the windows alone; otherwise it joins the paused queue with a zero window; `fd_to_flow` inserts only unknown descriptors |
| Scheduler.AcceptQueuesOnlyNewFd | ratemon/runtime/libratemon_interp.cpp:260-273 | the queues gain the new descriptor exactly when it is tracked; an untracked connection leaves `fd_to_flow` and `flow_to_rwnd` alone |
| Scheduler.CloseSpec | ratemon/runtime/libratemon_interp.cpp:283-307 | a successful `close` deletes the window of the descriptor's flow and forgets the descriptor, and keeps every other descriptor and every other flow's window; the queues and the setup flags are unchanged; a missing or failing real `close` changes nothing |
| Scheduler.KnownPrefix | ratemon/runtime/libratemon_interp.cpp:105-113 | the activation loop gets as far as the first descriptor `fd_to_flow` does not know |
| Scheduler.OwnsLast | ratemon/runtime/libratemon_interp.cpp:120-144 | a flow owned by a descriptor list is owned by its prefix or by its last descriptor |
| Scheduler.DeletedExactly | ratemon/runtime/libratemon_interp.cpp:120-127 | the activation deletes exactly the windows of the activated known descriptors' flows |
| Scheduler.ZeroedExactly | ratemon/runtime/libratemon_interp.cpp:134-144 | the pausing sets exactly the windows of the previously active known descriptors' flows to 0 |
| Scheduler.StepSpec | ratemon/runtime/libratemon_interp.cpp:71-145 | the thread stops exactly when either environment variable reads as 0, and an epoch is skipped exactly before setup or when fewer than `max_active_flows` flows exist and all are active; both leave the state unchanged; a completed epoch preserves the multiset of queued descriptors, leaves at most `max_active_flows` active, and leaves `fd_to_flow` and both setup flags alone |
| Scheduler.StepRotates | ratemon/runtime/libratemon_interp.cpp:105-145 | an epoch completes iff the first min(max, \|paused\|) paused descriptors are known; then active is those in FIFO order, and paused is the rest followed by the old active queue |
| Scheduler.StepWindows | ratemon/runtime/libratemon_interp.cpp:120-144 | activated flows lose their window, previously active flows get 0, and no other window changes |
| Scheduler.ClosedHeadStalls | ratemon/runtime/libratemon_interp.cpp:105-113 | closing the descriptor at the head of the paused queue makes the next epoch spin |
| Scheduler.StuckAt | ratemon/runtime/libratemon_interp.cpp:105-113 | an unknown descriptor where the loop stops marks the end of the known prefix |
| Scheduler.AllKnown | ratemon/runtime/libratemon_interp.cpp:105-113 | when all descriptors to activate are known, the loop takes them all |
| Scheduler.KnownPrefixExact | ratemon/runtime/libratemon_interp.cpp:105-113 | the known prefix ends at the first unknown descriptor |
| Scheduler.Scheduler.constructor | ratemon/runtime/libratemon_interp.cpp:28-56 | the queues and `fd_to_flow` start empty and `setup` and `skipped_first` false |
| Scheduler.Scheduler.Accept | ratemon/runtime/libratemon_interp.cpp:158-279 | the in-place update equals `AcceptSpec` and keeps at most `max_active_flows` active |
| Scheduler.Scheduler.Close | ratemon/runtime/libratemon_interp.cpp:283-307 | the in-place update equals `CloseSpec` |
| Scheduler.Scheduler.Step | ratemon/runtime/libratemon_interp.cpp:65-145 | one epoch equals `StepSpec`; a completed epoch keeps at most `max_active_flows` active |
| Scheduler.Scheduler.TakeKnown | ratemon/runtime/libratemon_interp.cpp:105-113 | the activation loop takes the first min(max, \|paused\|) paused descriptors, or stops at the first unknown one |
| Scheduler.Scheduler.ActivateAll | ratemon/runtime/libratemon_interp.cpp:120-127 | the activated descriptors join the active queue and their windows are deleted in order |
| Scheduler.Scheduler.PauseFirst | ratemon/runtime/libratemon_interp.cpp:134-144 | the previously active descriptors move to the back of the paused queue with zero windows |

## Left out

- The classifier, the feature pipeline (`gen_features.parse_received_acks`,
  `data.replace_unknowns`, `utils.clean`), `utils.safe_tput_bps` and `utils.bdp_B`.
  None of them is part of this model; they are function parameters, and the BDP
  estimate is a real input.
- InferenceWorker.NewDecision: the worker imports `react_up`, `react_down` and
  the strategy codes from `unfair.runtime.reaction_strategy`, which is not part of
  this model. The model uses the laws and codes (AIMD 0, MIMD 1) of
  `ratemon/runtime/python/reaction_strategy.py` in its place.
- `get_scheduled_pacing` and the FILE strategy constant are not part of this
  model. The scheduled value is the input `FromSchedule(scheduled)`.
- Floating point: windows, BDP estimates and times are `real`. The float and int
  conversions of schedule tokens are parameters. They raise ValueError when they
  return `None`.
- Time: `time.time()` is the parameter `now`. One `now` serves a whole
  `check_flows` pass, although the source reads the clock per flow.
- Threads, locks and `done`: try-lock outcomes are boolean inputs (`tableLock`,
  `flowLock`, and the `busy` sets of `check_flows`). Each monitor and worker step
  runs atomically, and the scheduler epoch runs under its mutex. Who sets `done`,
  KeyboardInterrupt, the signal handlers and the sleep between passes are not
  modelled.
- `print` and logging are not modelled.
- `Text.Strip`: only ASCII whitespace is stripped, not the other Unicode
  whitespace Python's `str.strip` removes.
- `Addresses.IpStrToInt`: only the four-part dotted-decimal form is accepted.
  The shorter and hexadecimal or octal forms `inet_aton` also takes are not
  modelled; they are errors in the model.
- `FlowKey` is a ctypes structure. The model keys the window map by the four-tuple
  value, so it does not capture ctypes field truncation. The worker's `decisions`
  and `min_rtts_us` are keyed by `flow_utils.FlowKey(*fourtuple)`, and
  `flow_utils` is not part of this model. The model takes that key to be hashable,
  with equality by value, and keys both maps by the four-tuple.
- The worker reads `inference_flags[fourtuple].value` as a map from four-tuple to
  integer. The shared-memory values are not modelled.
- eBPF and traffic-control set-up are not modelled: `load_bpf`, `configure_ebpf`,
  `run`, `_main`, the perf-buffer callbacks and the skeleton's maps. `flow_to_rwnd`
  is an abstract map. In the scheduler, a BPF delete of a missing key is a no-op,
  since its error code is ignored there.
- Scheduler system calls are inputs (`AcceptInputs`, and the real `close`'s
  result): `dlsym`, the real `accept` and `close`, `setsockopt` and `getsockopt`,
  `getsockname` and `getpeername`, and loading the skeleton. `trigger_ack` is not
  modelled.
- `ratemon.h` is not part of this model. The name `RM_BPF_CUBIC` is the
  parameter `bpfCubic`, and `struct rm_flow` is the `RmFlow` datatype built as at
  lines 254-257.
- `Scheduler.StepSpec` ends an epoch whose activation loop would spin with the
  outcome `Stuck`. It keeps the state the loop holds. A later `accept` that reuses
  the descriptor number could end the spin in the source; that is not modelled.
- `Scheduler.Scheduler.Step`: for a stuck epoch it promises the spec state but not
  the `max_active_flows` bound.
- The environment variables are read with `atoi` into `unsigned int`. The model
  takes them as natural numbers. A non-numeric value reads as 0, which the model
  covers. A negative value, which wraps to a large unsigned number, is not
  modelled. Neither is a missing variable: `atoi` of a null pointer crashes when
  the library loads.
- The monitor's window write is dropped from `Monitor.CheckFlowSpec`, because
  `Monitor.MonitorNeverWrites` proves it never happens.
- `get_static_rwnd` rebinds only a local slice, so the caller's list is never
  pruned. In the model this holds because sequences are values, so there is no
  separate lemma.

=== FILE: addresses.dfy ===
/** The address helpers of unfair/runtime/unfair_runtime.py: dotted-quad strings to
    32-bit integers and back, both packed little-endian (the first octet is the
    least significant byte, which is how the kernel hands addresses over), the
    loopback constant, and the printable form of a flow's four-tuple. */
module Addresses {
  import opened Base
  import opened Text
  import opened Fairness

  /** `struct.unpack("<L", bytes([b0, b1, b2, b3]))[0]`. */
  function Pack(b0: int, b1: int, b2: int, b3: int): int {
    b0 + 256 * (b1 + 256 * (b2 + 256 * b3))
  }

  predicate IsByte(b: int) {
    0 <= b < 256
  }

  /** `struct.pack("<L", n)`: the bytes of `n`, least significant first. */
  function LeBytes(n: int): (bs: seq<int>)
    requires 0 <= n < TwoTo32
    ensures |bs| == 4 && forall i :: 0 <= i < 4 ==> IsByte(bs[i])
    ensures Pack(bs[0], bs[1], bs[2], bs[3]) == n
  {
    var q1 := n / 256;
    var q2 := q1 / 256;
    var q3 := q2 / 256;
    assert q3 < 256;
    [n % 256, q1 % 256, q2 % 256, q3]
  }

  /** Splitting `b + 256 * q` at 256 gives back `b` and `q`. */
  lemma DivModByte(b: int, q: int)
    requires IsByte(b)
    ensures (b + 256 * q) % 256 == b && (b + 256 * q) / 256 == q
  {
  }

  /** Packing is inverted by `LeBytes`: four bytes come back as they went in. */
  lemma LeBytesPack(b0: int, b1: int, b2: int, b3: int)
    requires IsByte(b0) && IsByte(b1) && IsByte(b2) && IsByte(b3)
    ensures 0 <= Pack(b0, b1, b2, b3) < TwoTo32
    ensures LeBytes(Pack(b0, b1, b2, b3)) == [b0, b1, b2, b3]
  {
    var n := Pack(b0, b1, b2, b3);
    DivModByte(b0, b1 + 256 * (b2 + 256 * b3));
    DivModByte(b1, b2 + 256 * b3);
    DivModByte(b2, b3);
  }

  /** A decimal octet as `inet_aton` reads it in the dotted-quad form. */
  predicate IsOctet(s: string) {
    IsCanonicalDec(s) && DecValue(s) < 256
  }

  /** `ip_str_to_int`: `inet_aton` then a little-endian unpack. Strings that are not
      four canonical decimal octets separated by dots are refused with OSError. */
  function IpStrToInt(s: string): (r: Result<int>)
    ensures r.Ok? ==> 0 <= r.value < TwoTo32
    ensures r.Err? ==> r.error == OsError
    ensures r.Ok? <==> var parts := Split(s, '.');
                      |parts| == 4 && IsOctet(parts[0]) && IsOctet(parts[1])
                      && IsOctet(parts[2]) && IsOctet(parts[3])
  {
    var parts := Split(s, '.');
    if |parts| == 4 && IsOctet(parts[0]) && IsOctet(parts[1]) && IsOctet(parts[2])
       && IsOctet(parts[3])
    then
      LeBytesPack(DecValue(parts[0]), DecValue(parts[1]), DecValue(parts[2]), DecValue(parts[3]));
      Ok(Pack(DecValue(parts[0]), DecValue(parts[1]), DecValue(parts[2]), DecValue(parts[3])))
    else Err(OsError)
  }

  /** `int_to_ip_str`: a little-endian pack then `inet_ntoa`; a value outside the
      unsigned 32-bit range makes the pack raise `struct.error`. */
  function IntToIpStr(n: int): (r: Result<string>)
    ensures r.Ok? <==> 0 <= n < TwoTo32
    ensures r.Err? ==> r.error == StructError
  {
    if 0 <= n < TwoTo32 then
      var bs := LeBytes(n);
      Ok(Join([NatToDec(bs[0]), NatToDec(bs[1]), NatToDec(bs[2]), NatToDec(bs[3])], '.'))
    else Err(StructError)
  }

  predicate IsIpChar(c: char) {
    IsDigit(c) || c == '.'
  }

  /** A dot-joined list of digit strings holds only digits and dots. */
  lemma {:induction false} JoinDigitsIpChars(parts: seq<string>)
    requires |parts| > 0
    requires forall i :: 0 <= i < |parts| ==> AllDigits(parts[i])
    ensures forall k :: 0 <= k < |Join(parts, '.')| ==> IsIpChar(Join(parts, '.')[k])
  {
    if |parts| > 1 {
      JoinDigitsIpChars(parts[1..]);
    }
  }

  /** The rendered address is made of digits and dots only. */
  lemma IpStrChars(n: int)
    requires 0 <= n < TwoTo32
    ensures forall k :: 0 <= k < |IntToIpStr(n).value| ==> IsIpChar(IntToIpStr(n).value[k])
  {
    var bs := LeBytes(n);
    JoinDigitsIpChars([NatToDec(bs[0]), NatToDec(bs[1]), NatToDec(bs[2]), NatToDec(bs[3])]);
  }

  /** Every 32-bit value survives the trip through its dotted-quad string. */
  lemma IntRoundTrip(n: int)
    requires 0 <= n < TwoTo32
    ensures IpStrToInt(IntToIpStr(n).value) == Ok(n)
  {
    var bs := LeBytes(n);
    var parts := [NatToDec(bs[0]), NatToDec(bs[1]), NatToDec(bs[2]), NatToDec(bs[3])];
    forall i | 0 <= i < 4 ensures '.' !in parts[i] && IsOctet(parts[i]) {
      assert AllDigits(parts[i]);
    }
    SplitJoin(parts, '.');
  }

  /** Every dotted quad accepted by `IpStrToInt` is reproduced exactly. */
  lemma StrRoundTrip(s: string)
    requires IpStrToInt(s).Ok?
    ensures IntToIpStr(IpStrToInt(s).value) == Ok(s)
  {
    var parts := Split(s, '.');
    var v0, v1, v2, v3 := DecValue(parts[0]), DecValue(parts[1]), DecValue(parts[2]), DecValue(parts[3]);
    LeBytesPack(v0, v1, v2, v3);
    DecRoundTrip(parts[0]);
    DecRoundTrip(parts[1]);
    DecRoundTrip(parts[2]);
    DecRoundTrip(parts[3]);
    assert [parts[0], parts[1], parts[2], parts[3]] == parts;
  }

  /** Distinct dotted quads denote distinct integers. */
  lemma IpStrToIntInjective(s: string, t: string)
    requires IpStrToInt(s).Ok? && IpStrToInt(t).Ok?
    requires IpStrToInt(s) == IpStrToInt(t)
    ensures s == t
  {
    StrRoundTrip(s);
    StrRoundTrip(t);
  }

  /** `LOCALHOST = ip_str_to_int("127.0.0.1")`. */
  const Localhost: int := Pack(127, 0, 0, 1)

  /** The loopback address packs to 16777343: 127 in the low byte, 1 in the high one. */
  lemma LocalhostValue()
    ensures Localhost == 16777343
    ensures IntToIpStr(Localhost) == Ok("127.0.0.1")
  {
    LeBytesPack(127, 0, 0, 1);
    assert NatToDec(127) == "127";
    assert Join(["127", "0", "0", "1"], '.') == "127.0.0.1";
  }

  /** `f"{i}"` for a Python integer. */
  function IntToDec(i: int): (s: string)
    ensures s != []
    ensures forall k :: 0 <= k < |s| ==> IsDigit(s[k]) || s[k] == '-'
  {
    if i < 0 then "-" + NatToDec(-i) else NatToDec(i)
  }

  /** Reads back what `IntToDec` prints. */
  function ParseDec(s: string): Option<int> {
    if s != [] && s[0] == '-' && IsCanonicalDec(s[1..]) then
      var magnitude: int := DecValue(s[1..]);
      Some(-magnitude)
    else if IsCanonicalDec(s) then Some(DecValue(s))
    else None
  }

  lemma IntToDecRoundTrip(i: int)
    ensures ParseDec(IntToDec(i)) == Some(i)
  {
    if i < 0 {
      assert IntToDec(i)[1..] == NatToDec(-i);
    }
  }

  /** `flow_to_str`: `"<saddr>:<sport> -> <daddr>:<dport>"`; an address outside
      the 32-bit range fails inside `int_to_ip_str`. */
  function FlowToStr(ft: FourTuple): (r: Result<string>)
    ensures r.Ok? <==> 0 <= ft.saddr < TwoTo32 && 0 <= ft.daddr < TwoTo32
    ensures r.Err? ==> r.error == StructError
  {
    match IntToIpStr(ft.saddr)
    case Err(e) => Err(e)
    case Ok(src) =>
      match IntToIpStr(ft.daddr)
      case Err(e) => Err(e)
      case Ok(dst) => Ok(src + ":" + IntToDec(ft.sport) + " -> " + dst + ":" + IntToDec(ft.dport))
  }

  /** Reads a four-tuple back from its printed form. */
  function ParseFlowStr(s: string): Option<FourTuple> {
    var words := Split(s, ' ');
    if |words| != 3 || words[1] != "->" then None
    else
      var src, dst := Split(words[0], ':'), Split(words[2], ':');
      if |src| != 2 || |dst| != 2 then None
      else
        match (IpStrToInt(src[0]), ParseDec(src[1]), IpStrToInt(dst[0]), ParseDec(dst[1]))
        case (Ok(saddr), Some(sport), Ok(daddr), Some(dport)) =>
          Some(FourTuple(saddr, daddr, sport, dport))
        case _ => None
  }

  /** One `<address>:<port>` half of the printed form. */
  lemma EndpointSplits(n: int, port: int)
    requires 0 <= n < TwoTo32
    ensures ' ' !in IntToIpStr(n).value + ":" + IntToDec(port)
    ensures Split(IntToIpStr(n).value + ":" + IntToDec(port), ':') == [IntToIpStr(n).value, IntToDec(port)]
  {
    var ip, p := IntToIpStr(n).value, IntToDec(port);
    IpStrChars(n);
    assert ':' !in ip && ':' !in p;
    SplitJoin([ip, p], ':');
    assert Join([ip, p], ':') == ip + ":" + p;
    var e := ip + ":" + p;
    forall k | 0 <= k < |e| ensures e[k] != ' ' {
      if k < |ip| {
        assert e[k] == ip[k];
      } else if k > |ip| {
        assert e[k] == p[k - |ip| - 1];
      }
    }
  }

  /** The printed form is its two endpoints and the arrow, joined by spaces. */
  lemma FlowStrIsJoin(ft: FourTuple)
    requires FlowToStr(ft).Ok?
    ensures FlowToStr(ft).value
            == Join([IntToIpStr(ft.saddr).value + ":" + IntToDec(ft.sport), "->",
                     IntToIpStr(ft.daddr).value + ":" + IntToDec(ft.dport)], ' ')
  {
    var src := IntToIpStr(ft.saddr).value + ":" + IntToDec(ft.sport);
    var dst := IntToIpStr(ft.daddr).value + ":" + IntToDec(ft.dport);
    var parts := [src, "->", dst];
    assert " -> " == [' '] + "->" + [' '];
    assert parts[1..][1..] == [dst];
    assert Join(parts[1..], ' ') == "->" + [' '] + dst;
    assert Join(parts, ' ') == src + [' '] + ("->" + [' '] + dst);
  }

  /** The printed form splits at its spaces into the two endpoints and the arrow. */
  lemma FlowStrWords(ft: FourTuple)
    requires FlowToStr(ft).Ok?
    ensures Split(FlowToStr(ft).value, ' ')
            == [IntToIpStr(ft.saddr).value + ":" + IntToDec(ft.sport), "->",
                IntToIpStr(ft.daddr).value + ":" + IntToDec(ft.dport)]
  {
    var src := IntToIpStr(ft.saddr).value + ":" + IntToDec(ft.sport);
    var dst := IntToIpStr(ft.daddr).value + ":" + IntToDec(ft.dport);
    EndpointSplits(ft.saddr, ft.sport);
    EndpointSplits(ft.daddr, ft.dport);
    assert ' ' !in "->";
    SplitJoin([src, "->", dst], ' ');
    FlowStrIsJoin(ft);
  }

  /** The printed form of a four-tuple can be read back. */
  lemma FlowStrRoundTrip(ft: FourTuple)
    requires FlowToStr(ft).Ok?
    ensures ParseFlowStr(FlowToStr(ft).value) == Some(ft)
  {
    FlowStrWords(ft);
    EndpointSplits(ft.saddr, ft.sport);
    EndpointSplits(ft.daddr, ft.dport);
    IntRoundTrip(ft.saddr);
    IntRoundTrip(ft.daddr);
    IntToDecRoundTrip(ft.sport);
    IntToDecRoundTrip(ft.dport);
  }

  /** Distinct flows print differently, so the printed form identifies the flow. */
  lemma FlowToStrInjective(a: FourTuple, b: FourTuple)
    requires FlowToStr(a).Ok? && FlowToStr(a) == FlowToStr(b)
    ensures a == b
  {
    FlowStrRoundTrip(a);
    FlowStrRoundTrip(b);
  }
}

=== FILE: base.dfy ===
/** Values shared by every part of the model: the Python exceptions the runtime
    raises, an Option and a Result to carry them, and the few numeric conversions
    of the Python runtime (round, ctypes integer wrap-around, negative slices). */
module Base {

  /** The exception classes that the modelled code raises or lets escape. */
  datatype Error =
    | KeyError
    | IndexError
    | ValueError
    | AssertionError
    | RuntimeError
    | TypeError
    | AttributeError
    | StructError
    | OsError
    | ClassifierError   // any non-assertion failure raised inside the classifier

  datatype Option<T> = None | Some(value: T)

  datatype Result<T> = Ok(value: T) | Err(error: Error)

  /** Python's `sys.maxsize` on a 64-bit build: the "unknown" minimum RTT. */
  const MaxSize: int := 0x7FFF_FFFF_FFFF_FFFF

  const TwoTo32: int := 0x1_0000_0000
  const TwoTo31: int := 0x8000_0000

  /** Python's built-in `round` on one argument: nearest integer, ties to even. */
  function RoundHalfEven(x: real): (r: int)
    ensures x - 0.5 <= r as real <= x + 0.5
    ensures (r as real - x == 0.5 || x - r as real == 0.5) ==> r % 2 == 0
  {
    var f := x.Floor;
    var frac := x - f as real;
    if frac < 0.5 then f
    else if frac > 0.5 then f + 1
    else if f % 2 == 0 then f
    else f + 1
  }

  /** `ctypes.c_uint32(v).value`: the value taken modulo 2^32. */
  function U32(v: int): (r: int)
    ensures 0 <= r < TwoTo32
    ensures (r - v) % TwoTo32 == 0
    ensures 0 <= v < TwoTo32 ==> r == v
  {
    v % TwoTo32
  }

  /** `ctypes.c_int(v).value`: two's-complement wrap into the signed 32-bit range. */
  function I32(v: int): (r: int)
    ensures -TwoTo31 <= r < TwoTo31
    ensures (r - v) % TwoTo32 == 0
    ensures -TwoTo31 <= v < TwoTo31 ==> r == v
  {
    var m := v % TwoTo32;
    if m >= TwoTo31 then m - TwoTo32 else m
  }

  /** Python's `s[-n:]` for a positive `n`: the `n` most recent elements, in order. */
  function LastN<T>(s: seq<T>, n: nat): (r: seq<T>)
    requires n > 0
    ensures |r| == if |s| < n then |s| else n
    ensures r == s[|s| - |r|..]
  {
    if |s| <= n then s else s[|s| - n..]
  }
}

=== FILE: fairness.dfy ===
/** The values both flow monitors share (unfair/runtime/inference.py and
    unfair/runtime/unfair_runtime.py): the classifier's fairness labels, the
    `(Decision, value)` tuple stored per flow, the flow four-tuple, the outcome of one
    classifier run, and the reduction of a window of labels to one. */
module Fairness {
  import opened Base

  /** `defaults.Class`: where a flow's throughput sits relative to its fair share. */
  datatype Label = BelowFair | ApproxFair | AboveFair

  /** `defaults.Decision`. */
  datatype DecisionKind = NotPaced | Paced

  /** The decision tuple `(Decision, value)`. The value is `None` or a number: a
      float while it is being decided, a rounded integer once stored; Python
      compares the two by value, and so does `real`. */
  datatype Decision = Decision(kind: DecisionKind, value: Option<real>)

  /** The default decision of every flow, `(NOT_PACED, None)`. */
  const Undecided: Decision := Decision(NotPaced, None)

  /** A decision whose tag and value agree: PACED carries a value, NOT_PACED none. */
  predicate Consistent(d: Decision) {
    (d.kind == Paced) == d.value.Some?
  }

  /** A flow's four-tuple `(saddr, daddr, sport, dport)`; keys compare by value. */
  datatype FourTuple = FourTuple(saddr: int, daddr: int, sport: int, dport: int)

  /** One feature row handed to the classifier. */
  type Row = seq<real>

  /** The outcome of running the classifier on a feature window: the labels it
      predicted (one per row), an AssertionError raised on the way, or any other
      exception. */
  datatype Prediction = Labels(labels: seq<Label>) | AssertionFailure | OtherFailure

  /** The two kinds of Python value the "already paced" test compares: a bare enum
      member and a stored decision tuple. */
  datatype PyValue = PyEnum(member: DecisionKind) | PyTuple(decision: Decision)

  /** The test `decision == defaults.Decision.PACED`, where `decision` is a stored
      tuple: a tuple never equals an enum member, so the test is always false. */
  function StoredIsBarePaced(stored: Decision): (r: bool)
    ensures !r
  {
    PyTuple(stored) == PyEnum(Paced)
  }

  /** `condense_labels`: asserts the list is non-empty and takes its last label. */
  function CondenseLabels(labels: seq<Label>): (r: Result<Label>)
    ensures r.Err? <==> labels == []
    ensures r.Err? ==> r.error == AssertionError
    ensures r.Ok? ==> r.value == labels[|labels| - 1]
  {
    if |labels| > 0 then Ok(labels[|labels| - 1]) else Err(AssertionError)
  }

  /** Only the most recent label matters: whatever precedes it is ignored. */
  lemma CondenseIgnoresHistory(earlier: seq<Label>, labels: seq<Label>)
    requires labels != []
    ensures CondenseLabels(earlier + labels) == CondenseLabels(labels)
  {
    assert (earlier + labels)[|earlier + labels| - 1] == labels[|labels| - 1];
  }
}

=== FILE: inference_worker.dfy ===
/** unfair/runtime/inference.py: the worker process that receives a flow's packet
    batch from a queue, sorts it by arrival time, computes a feature window of at
    most ten rows, classifies it, reduces the labels to one, decides how to pace the
    flow, writes that decision into the shared `flow_to_rwnd` map and finally clears
    the flow's in-flight flag.

    Feature computation (`gen_features.parse_received_acks`), the classifier
    (`net.predict` after `data.replace_unknowns` and `utils.clean`), the BDP
    estimate (`utils.safe_tput_bps` and `utils.bdp_B`) and the configured policy
    (`args.reaction_strategy`, `args.schedule`) are parameters, gathered in `Env`. */
module InferenceWorker {
  import opened Base
  import opened Sorting
  import opened ReactionStrategy
  import opened Fairness

  /** One queued packet record `(seq, rtt_us, total_bytes, payload_bytes, time_us)`. */
  datatype Packet = Packet(seqNo: int, rttUs: int, totalBytes: int, payloadBytes: int, timeUs: int)

  /** The sort key `pkt[-1]`: the arrival time. */
  function ArrivalKey(p: Packet): real {
    p.timeUs as real
  }

  /** `packets_to_ndarray`: the batch sorted by arrival time; unpacking the columns
      of an empty batch raises ValueError. The array keeps every packet. */
  function PacketsToArray(pkts: seq<Packet>): (r: Result<seq<Packet>>)
    ensures r.Err? <==> pkts == []
    ensures r.Err? ==> r.error == ValueError
    ensures r.Ok? ==> multiset(r.value) == multiset(pkts) && SortedBy(r.value, ArrivalKey)
  {
    if pkts == [] then Err(ValueError) else Ok(SortBy(pkts, ArrivalKey))
  }

  /** Sorting a batch by arrival time before it is turned into an array changes
      nothing: the conversion sorts it the same way itself. */
  lemma PresortedBatchSameArray(pkts: seq<Packet>)
    ensures PacketsToArray(SortBy(pkts, ArrivalKey)) == PacketsToArray(pkts)
  {
    SortByIdempotent(pkts, ArrivalKey);
    assert |multiset(SortBy(pkts, ArrivalKey))| == |multiset(pkts)|;
  }

  /** How many feature rows the classifier sees. */
  const FeatureRows: nat := 10

  /** The configured policy: the FILE strategy with the value its schedule gives
      now, or a reaction strategy (an integer code, see `ReactionStrategy`). */
  datatype Policy = FromSchedule(scheduled: real) | React(strategy: int)

  /** What the worker relies on but this model does not define. */
  datatype Env = Env(
    parseAcks: (FourTuple, seq<Packet>, int) -> (seq<Row>, int),
    classify: seq<Row> -> Prediction,
    bdpEstimate: (seq<Packet>, int) -> real,
    policy: Policy)

  /** `featurize`: the feature rows of the batch and the updated minimum RTT. */
  function Featurize(parseAcks: (FourTuple, seq<Packet>, int) -> (seq<Row>, int),
                     fk: FourTuple, pkts: seq<Packet>, minRtt: int): (seq<Row>, int)
  {
    var (rows, rtt) := parseAcks(fk, pkts, minRtt);
    (LastN(rows, FeatureRows), rtt)
  }

  /** The classifier sees the ten most recent feature rows, in their original
      order, or all of them when there are fewer; the minimum RTT is the
      featurizer's. */
  lemma FeaturizeKeepsLatestRows(parseAcks: (FourTuple, seq<Packet>, int) -> (seq<Row>, int),
                                 fk: FourTuple, pkts: seq<Packet>, minRtt: int)
    ensures var (rows, rtt) := parseAcks(fk, pkts, minRtt);
            var r := Featurize(parseAcks, fk, pkts, minRtt);
            r.1 == rtt
            && |r.0| == (if |rows| < FeatureRows then |rows| else FeatureRows)
            && r.0 == rows[|rows| - |r.0|..]
  {
  }

  /** The decision `make_decision` computes (inference.py:90-126) before comparing it
      with the stored one. `alreadyPaced` is the outcome of the test at line 107. A
      decision stays consistent: PACED carries a value, NOT_PACED none. */
  function NewDecision(policy: Policy, fairness: Label, stored: Decision, bdp: real,
                       alreadyPaced: bool): (r: Result<Decision>)
    ensures r.Err? ==> policy.React? && r.error == RuntimeError
    ensures policy.FromSchedule? ==> r == Ok(Decision(Paced, Some(policy.scheduled)))
    ensures Consistent(stored) && r.Ok? ==> Consistent(r.value)
  {
    match policy
    case FromSchedule(v) => Ok(Decision(Paced, Some(v)))
    case React(strategy) =>
      if fairness == AboveFair then
        match ReactDown(strategy, bdp)
        case Err(e) => Err(e)
        case Ok(v) => Ok(Decision(Paced, Some(v)))
      else if alreadyPaced then
        if fairness == BelowFair then
          match ReactUp(strategy, bdp)
          case Err(e) => Err(e)
          case Ok(v) => Ok(Decision(Paced, Some(v)))
        else Ok(stored)
      else Ok(Undecided)
  }

  /** An ABOVE_FAIR flow is always paced at `react_down` of the BDP estimate,
      whatever was stored before. */
  lemma AboveFairPacesDown(strategy: Strategy, stored: Decision, bdp: real, alreadyPaced: bool)
    ensures NewDecision(React(strategy.Code()), AboveFair, stored, bdp, alreadyPaced)
            == Ok(Decision(Paced, Some(ReactDown(strategy.Code(), bdp).value)))
  {
  }

  /** As written, the "already paced" test never holds, so every fairness other than
      ABOVE_FAIR yields NOT_PACED, including for a flow currently paced. */
  lemma DecisionAsWritten(strategy: int, fairness: Label, stored: Decision, bdp: real)
    requires fairness != AboveFair
    ensures NewDecision(React(strategy), fairness, stored, bdp, StoredIsBarePaced(stored)) == Ok(Undecided)
  {
  }

  /** With the test read as "the stored decision is PACED", the decision follows
      the table that the comments of `make_decision` (inference.py lines 98-126)
      describe: up when below fair, kept when about fair, down when above. */
  lemma DecisionTableIntended(strategy: Strategy, fairness: Label, stored: Decision, bdp: real)
    ensures var r := NewDecision(React(strategy.Code()), fairness, stored, bdp, stored.kind == Paced);
            match fairness
            case AboveFair => r == Ok(Decision(Paced, Some(ReactDown(strategy.Code(), bdp).value)))
            case BelowFair =>
              r == if stored.kind == Paced then Ok(Decision(Paced, Some(ReactUp(strategy.Code(), bdp).value)))
                   else Ok(Undecided)
            case ApproxFair => r == if stored.kind == Paced then Ok(stored) else Ok(Undecided)
  {
  }

  /** The stored decision of `fk`: `decisions` is a defaultdict whose default is
      `(NOT_PACED, None)`. */
  function Stored(decisions: map<FourTuple, Decision>, fk: FourTuple): Decision {
    if fk in decisions then decisions[fk] else Undecided
  }

  /** The two maps `make_decision` writes. */
  datatype Tables = Tables(decisions: map<FourTuple, Decision>, flowToRwnd: map<FourTuple, int>)

  /** The second half of `make_decision` (inference.py:131-147). Reading the stored
      decision inserts the default. Nothing is written unless the decision changed;
      a change to a decision without a value deletes the flow's window; otherwise
      the value is rounded, asserted positive, written as an unsigned 32-bit window
      and stored rounded. Only the flow's own entries change. */
  function Commit(t: Tables, fk: FourTuple, nd: Decision): (r: (Tables, Option<Error>))
    ensures fk in r.0.decisions
    ensures forall k :: k != fk ==> Stored(r.0.decisions, k) == Stored(t.decisions, k)
                                    && (k in r.0.decisions <==> k in t.decisions)
    ensures forall k :: k != fk ==> (k in r.0.flowToRwnd <==> k in t.flowToRwnd)
    ensures forall k :: k != fk && k in t.flowToRwnd ==> r.0.flowToRwnd[k] == t.flowToRwnd[k]
    ensures Stored(t.decisions, fk) == nd ==> r.1.None? && r.0.flowToRwnd == t.flowToRwnd
                                              && Stored(r.0.decisions, fk) == nd
    ensures r.1.Some? ==> r.0.flowToRwnd == t.flowToRwnd
                          && Stored(r.0.decisions, fk) == Stored(t.decisions, fk)
    ensures r.1 == Some(KeyError) <==> Stored(t.decisions, fk) != nd && nd.value.None?
                                       && fk !in t.flowToRwnd
    ensures r.1.Some? ==> r.1 == Some(KeyError) || r.1 == Some(AssertionError)
    ensures fk in r.0.flowToRwnd && r.0.flowToRwnd != t.flowToRwnd
            ==> 0 <= r.0.flowToRwnd[fk] < TwoTo32
  {
    var stored := Stored(t.decisions, fk);
    var decisions := t.decisions[fk := stored];
    if stored == nd then (Tables(decisions, t.flowToRwnd), None)
    else if nd.value.None? then
      if fk in t.flowToRwnd then (Tables(decisions[fk := nd], t.flowToRwnd - {fk}), None)
      else (Tables(decisions, t.flowToRwnd), Some(KeyError))
    else
      var v := RoundHalfEven(nd.value.value);
      if v <= 0 then (Tables(decisions, t.flowToRwnd), Some(AssertionError))
      else (Tables(decisions[fk := Decision(nd.kind, Some(v as real))], t.flowToRwnd[fk := U32(v)]), None)
  }

  /** A change to a paced decision stores the rounded value and writes it as the
      flow's window, reduced modulo 2^32; a value that rounds to zero or below is
      refused by the assertion. */
  lemma CommitPacedChange(t: Tables, fk: FourTuple, nd: Decision)
    requires Stored(t.decisions, fk) != nd && nd.value.Some?
    ensures var v := RoundHalfEven(nd.value.value);
            var r := Commit(t, fk, nd);
            if v <= 0 then r.1 == Some(AssertionError)
            else r.1.None? && r.0.flowToRwnd[fk] == U32(v)
                 && Stored(r.0.decisions, fk) == Decision(nd.kind, Some(v as real))
  {
  }

  /** A change to NOT_PACED removes the flow's window and stores the decision. */
  lemma CommitNotPacedChange(t: Tables, fk: FourTuple, nd: Decision)
    requires Stored(t.decisions, fk) != nd && nd.value.None? && fk in t.flowToRwnd
    ensures Commit(t, fk, nd).1.None?
    ensures fk !in Commit(t, fk, nd).0.flowToRwnd
    ensures Stored(Commit(t, fk, nd).0.decisions, fk) == nd
  {
  }

  /** The worker's state: the per-flow decisions and minimum RTTs it keeps, the
      shared window map, and the per-flow in-flight flags it clears. */
  datatype WorkerState = WorkerState(decisions: map<FourTuple, Decision>,
                                     minRtts: map<FourTuple, int>,
                                     flowToRwnd: map<FourTuple, int>,
                                     flags: map<FourTuple, int>)

  /** One read from the queue: a timeout, a non-tuple value, or a batch. */
  datatype Message = QueueEmpty | NotATuple | Batch(fourtuple: FourTuple, pkts: seq<Packet>)

  /** How one message ends: ignored, decided, skipped after an assertion failure in
      inference, or an exception that ends the worker. */
  datatype Outcome = Skipped | Decided | BatchSkipped | Fatal(error: Error)

  /** Every entry of `fk`'s neighbours is as it was: decisions, windows. */
  ghost predicate OthersUnchanged(s: WorkerState, s': WorkerState, fk: FourTuple) {
    forall k :: k != fk ==>
      Stored(s'.decisions, k) == Stored(s.decisions, k)
      && (k in s'.flowToRwnd <==> k in s.flowToRwnd)
      && (k in s.flowToRwnd ==> s'.flowToRwnd[k] == s.flowToRwnd[k])
  }

  /** `make_decision` as a whole, on the worker state; `minRtt` is the flow's
      updated minimum RTT. A failing reaction strategy raises before anything is
      written; otherwise the new decision is committed. Only the flow's own
      decision and window change. The deletion of a window that is not there
      raises KeyError. */
  function DecideStep(s: WorkerState, fk: FourTuple, fairness: Label, arr: seq<Packet>,
                      minRtt: int, env: Env): (r: (WorkerState, Outcome))
    ensures r.0.minRtts == s.minRtts && r.0.flags == s.flags
    ensures OthersUnchanged(s, r.0, fk)
    ensures r.1 == Decided || r.1.Fatal?
  {
    var stored := Stored(s.decisions, fk);
    var bdp := env.bdpEstimate(arr, minRtt);
    match NewDecision(env.policy, fairness, stored, bdp, StoredIsBarePaced(stored))
    case Err(e) => (s, Fatal(e))
    case Ok(nd) =>
      var (t, err) := Commit(Tables(s.decisions, s.flowToRwnd), fk, nd);
      (s.(decisions := t.decisions, flowToRwnd := t.flowToRwnd),
       if err.Some? then Fatal(err.value) else Decided)
  }

  /** The minimum RTT the worker holds for `fk`: `min_rtts_us` is a defaultdict
      whose default is `sys.maxsize`. */
  function MinRtt(minRtts: map<FourTuple, int>, fk: FourTuple): int {
    if fk in minRtts then minRtts[fk] else MaxSize
  }

  /** What follows the classifier run (inference.py:279-305) for the state `s1`
      in which the minimum RTT has been read: an assertion failure skips the
      batch; any other failure is fatal; on success the new minimum RTT `rtt1` is
      stored, and failures while condensing or deciding are fatal too, as they are
      raised in the `else` clause. The flags are left to the `finally` clause. */
  function AfterClassify(s1: WorkerState, fk: FourTuple, arr: seq<Packet>, p: Prediction,
                         rtt1: int, env: Env): (r: (WorkerState, Outcome))
    ensures r.0.flags == s1.flags
    ensures OthersUnchanged(s1, r.0, fk)
    ensures r.0.minRtts == if p.Labels? then s1.minRtts[fk := rtt1] else s1.minRtts
    ensures p == AssertionFailure ==> r == (s1, BatchSkipped)
    ensures p == OtherFailure ==> r == (s1, Fatal(ClassifierError))
  {
    match p
    case AssertionFailure => (s1, BatchSkipped)
    case OtherFailure => (s1, Fatal(ClassifierError))
    case Labels(labels) =>
      var s2 := s1.(minRtts := s1.minRtts[fk := rtt1]);
      match CondenseLabels(labels)
      case Err(e) => (s2, Fatal(e))
      case Ok(fairness) => DecideStep(s2, fk, fairness, arr, rtt1, env)
  }

  /** The `try` of the loop body (inference.py:275-278): reading the minimum RTT
      inserts the default, then the batch is featurized and classified. */
  function Infer(s: WorkerState, fk: FourTuple, arr: seq<Packet>, env: Env): (r: (WorkerState, Outcome))
    ensures r.0.flags == s.flags
    ensures OthersUnchanged(s, r.0, fk)
    ensures forall k :: k != fk ==> MinRtt(r.0.minRtts, k) == MinRtt(s.minRtts, k)
  {
    var rtt0 := MinRtt(s.minRtts, fk);
    var fr := Featurize(env.parseAcks, fk, arr, rtt0);
    AfterClassify(s.(minRtts := s.minRtts[fk := rtt0]), fk, arr, env.classify(fr.0), fr.1, env)
  }

  /** One pass of the `while` body of `inference_loop` (lines 262-308). Non-tuple
      values and timeouts are ignored. The batch is sorted before the `try`, so an
      empty batch ends the worker without clearing the flag; otherwise the
      `finally` clause clears the flow's flag on every path, and fails with
      KeyError when the flow has no flag. */
  function Process(s: WorkerState, msg: Message, env: Env): (WorkerState, Outcome) {
    match msg
    case QueueEmpty => (s, Skipped)
    case NotATuple => (s, Skipped)
    case Batch(fk, pkts) =>
      match PacketsToArray(pkts)
      case Err(e) => (s, Fatal(e))
      case Ok(arr) =>
        var (s1, out) := Infer(s, fk, arr, env);
        if fk in s1.flags then (s1.(flags := s1.flags[fk := 0]), out)
        else (s1, Fatal(KeyError))
  }

  /** Timeouts and values that are not batches change nothing. */
  lemma NonBatchIgnored(s: WorkerState, msg: Message, env: Env)
    requires !msg.Batch?
    ensures Process(s, msg, env) == (s, Skipped)
  {
  }

  /** Every non-empty batch ends with its flow's flag cleared, whatever happened in
      between; without a flag the worker dies with KeyError. */
  lemma FlagClearedAfterBatch(s: WorkerState, fk: FourTuple, pkts: seq<Packet>, env: Env)
    requires pkts != []
    ensures var (s', out) := Process(s, Batch(fk, pkts), env);
            if fk in s.flags then s'.flags == s.flags[fk := 0] else out == Fatal(KeyError)
  {
  }

  /** An empty batch is fatal before anything changes. */
  lemma EmptyBatchFatal(s: WorkerState, fk: FourTuple, env: Env)
    ensures Process(s, Batch(fk, []), env) == (s, Fatal(ValueError))
  {
  }

  /** The minimum RTT of a flow defaults to `sys.maxsize` and takes the featurizer's
      new value only when the classifier succeeds. */
  lemma MinRttUpdatedOnSuccess(s: WorkerState, fk: FourTuple, pkts: seq<Packet>, env: Env)
    requires pkts != []
    ensures var rtt0 := MinRtt(s.minRtts, fk);
            var fr := Featurize(env.parseAcks, fk, SortBy(pkts, ArrivalKey), rtt0);
            Process(s, Batch(fk, pkts), env).0.minRtts
            == s.minRtts[fk := if env.classify(fr.0).Labels? then fr.1 else rtt0]
  {
    var arr := SortBy(pkts, ArrivalKey);
    var rtt0 := MinRtt(s.minRtts, fk);
    var fr := Featurize(env.parseAcks, fk, arr, rtt0);
    var s1 := s.(minRtts := s.minRtts[fk := rtt0]);
    assert Infer(s, fk, arr, env) == AfterClassify(s1, fk, arr, env.classify(fr.0), fr.1, env);
    assert Process(s, Batch(fk, pkts), env).0.minRtts == Infer(s, fk, arr, env).0.minRtts;
  }

  /** An assertion failure in inference leaves the decisions and the window map as
      they were; the worker carries on unless the flag is missing. */
  lemma AssertionFailureSkipsDecision(s: WorkerState, fk: FourTuple, pkts: seq<Packet>, env: Env)
    requires pkts != []
    requires var (rows, _) := Featurize(env.parseAcks, fk, SortBy(pkts, ArrivalKey), MinRtt(s.minRtts, fk));
             env.classify(rows) == AssertionFailure
    ensures var (s', out) := Process(s, Batch(fk, pkts), env);
            s'.decisions == s.decisions && s'.flowToRwnd == s.flowToRwnd
            && out == (if fk in s.flags then BatchSkipped else Fatal(KeyError))
  {
  }

  /** One message touches only its own flow's entries. */
  lemma ProcessTouchesOneFlow(s: WorkerState, msg: Message, env: Env, k: FourTuple)
    requires msg.Batch? ==> k != msg.fourtuple
    ensures var s' := Process(s, msg, env).0;
            Stored(s'.decisions, k) == Stored(s.decisions, k)
            && MinRtt(s'.minRtts, k) == MinRtt(s.minRtts, k)
            && (k in s'.flowToRwnd <==> k in s.flowToRwnd)
            && (k in s.flowToRwnd ==> s'.flowToRwnd[k] == s.flowToRwnd[k])
            && (k in s'.flags <==> k in s.flags)
            && (k in s.flags ==> s'.flags[k] == s.flags[k])
  {
  }

  /** Pre-sorting a batch by arrival time before feeding it to the worker changes
      nothing: the worker ends in the same state with the same output. */
  lemma PresortedBatchSameStep(s: WorkerState, fk: FourTuple, pkts: seq<Packet>, env: Env)
    ensures Process(s, Batch(fk, SortBy(pkts, ArrivalKey)), env) == Process(s, Batch(fk, pkts), env)
  {
    PresortedBatchSameArray(pkts);
  }

  /** A stored decision is consistent, and a stored value is a positive whole
      number. */
  predicate StoredWellFormed(d: Decision) {
    Consistent(d) && (d.value.Some? ==> d.value.value >= 1.0 && d.value.value == d.value.value.Floor as real)
  }

  /** Every stored decision is well formed, and every flow stored as PACED has a
      window in the map. */
  predicate WellFormed(s: WorkerState) {
    forall k :: k in s.decisions ==>
      StoredWellFormed(s.decisions[k]) && (s.decisions[k].kind == Paced ==> k in s.flowToRwnd)
  }

  /** Committing a consistent decision keeps the stored decisions well formed. */
  lemma CommitKeepsWellFormed(s: WorkerState, fk: FourTuple, nd: Decision)
    requires WellFormed(s) && Consistent(nd)
    ensures var (t, _) := Commit(Tables(s.decisions, s.flowToRwnd), fk, nd);
            WellFormed(s.(decisions := t.decisions, flowToRwnd := t.flowToRwnd))
  {
    var (t, _) := Commit(Tables(s.decisions, s.flowToRwnd), fk, nd);
    forall k | k in t.decisions
      ensures StoredWellFormed(t.decisions[k])
      ensures t.decisions[k].kind == Paced ==> k in t.flowToRwnd
    {
      if k != fk {
        assert t.decisions[k] == s.decisions[k];
      }
    }
  }

  /** In a well-formed state the worker never deletes a window that is missing:
      a change to NOT_PACED always starts from a PACED flow, which has one. */
  lemma CommitNeverMissesWindow(s: WorkerState, fk: FourTuple, nd: Decision)
    requires WellFormed(s) && Consistent(nd)
    ensures Commit(Tables(s.decisions, s.flowToRwnd), fk, nd).1 != Some(KeyError)
  {
    var stored := Stored(s.decisions, fk);
    if stored != nd && nd.value.None? {
      assert stored.kind == Paced;
    }
  }

  /** Hence `make_decision` raises KeyError in no well-formed state. */
  lemma DecideStepNeverMissesWindow(s: WorkerState, fk: FourTuple, fairness: Label, arr: seq<Packet>,
                                    minRtt: int, env: Env)
    requires WellFormed(s)
    ensures DecideStep(s, fk, fairness, arr, minRtt, env).1 != Fatal(KeyError)
  {
    var stored := Stored(s.decisions, fk);
    assert Consistent(stored);
    var nd := NewDecision(env.policy, fairness, stored, env.bdpEstimate(arr, minRtt),
                          StoredIsBarePaced(stored));
    if nd.Ok? {
      CommitNeverMissesWindow(s, fk, nd.value);
    }
  }

  /** `make_decision` keeps the stored decisions well formed. */
  lemma DecideStepKeepsWellFormed(s: WorkerState, fk: FourTuple, fairness: Label, arr: seq<Packet>,
                                  minRtt: int, env: Env)
    requires WellFormed(s)
    ensures WellFormed(DecideStep(s, fk, fairness, arr, minRtt, env).0)
  {
    var stored := Stored(s.decisions, fk);
    assert Consistent(stored);
    var nd := NewDecision(env.policy, fairness, stored, env.bdpEstimate(arr, minRtt),
                          StoredIsBarePaced(stored));
    if nd.Ok? {
      CommitKeepsWellFormed(s, fk, nd.value);
    }
  }

  /** Whatever the classifier returns, the stored decisions stay well formed. */
  lemma AfterClassifyKeepsWellFormed(s1: WorkerState, fk: FourTuple, arr: seq<Packet>, p: Prediction,
                                     rtt1: int, env: Env)
    requires WellFormed(s1)
    ensures WellFormed(AfterClassify(s1, fk, arr, p, rtt1, env).0)
  {
    if p.Labels? && p.labels != [] {
      DecideStepKeepsWellFormed(s1.(minRtts := s1.minRtts[fk := rtt1]), fk, p.labels[|p.labels| - 1],
                                arr, rtt1, env);
    }
  }

  /** Classifying a batch keeps the stored decisions well formed. */
  lemma InferKeepsWellFormed(s: WorkerState, fk: FourTuple, arr: seq<Packet>, env: Env)
    requires WellFormed(s)
    ensures WellFormed(Infer(s, fk, arr, env).0)
  {
    var rtt0 := MinRtt(s.minRtts, fk);
    var fr := Featurize(env.parseAcks, fk, arr, rtt0);
    AfterClassifyKeepsWellFormed(s.(minRtts := s.minRtts[fk := rtt0]), fk, arr, env.classify(fr.0), fr.1, env);
  }

  /** Processing a message keeps the stored decisions well formed. */
  lemma ProcessKeepsWellFormed(s: WorkerState, msg: Message, env: Env)
    requires WellFormed(s)
    ensures WellFormed(Process(s, msg, env).0)
  {
    if msg.Batch? && msg.pkts != [] {
      var fk := msg.fourtuple;
      var arr := SortBy(msg.pkts, ArrivalKey);
      var rtt0 := MinRtt(s.minRtts, fk);
      InferKeepsWellFormed(s, fk, arr, env);
      assert Process(s, msg, env).0.decisions == Infer(s, fk, arr, env).0.decisions;
    }
  }

  /** The loop over a sequence of queue reads: messages are processed in order
      until one is fatal; the state then is the one the failing message left. */
  function Run(s: WorkerState, msgs: seq<Message>, env: Env): (WorkerState, Option<Error>)
    decreases |msgs|
  {
    if msgs == [] then (s, None)
    else
      var (s1, out) := Process(s, msgs[0], env);
      if out.Fatal? then (s1, Some(out.error)) else Run(s1, msgs[1..], env)
  }

  /** However the loop ends, the stored decisions stay well formed. */
  lemma {:induction false} RunKeepsWellFormed(s: WorkerState, msgs: seq<Message>, env: Env)
    requires WellFormed(s)
    ensures WellFormed(Run(s, msgs, env).0)
    decreases |msgs|
  {
    if msgs != [] {
      ProcessKeepsWellFormed(s, msgs[0], env);
      var (s1, out) := Process(s, msgs[0], env);
      if !out.Fatal? {
        RunKeepsWellFormed(s1, msgs[1..], env);
      }
    }
  }

  /** The worker's dictionaries. `flowToRwnd` stands for the shared BPF map and
      `flags` for the shared in-flight flags. */
  class Worker {
    var decisions: map<FourTuple, Decision>
    var minRtts: map<FourTuple, int>
    var flowToRwnd: map<FourTuple, int>
    var flags: map<FourTuple, int>

    function State(): WorkerState
      reads this
    {
      WorkerState(decisions, minRtts, flowToRwnd, flags)
    }

    /** The two defaultdicts start empty. */
    constructor (sharedRwnd: map<FourTuple, int>, sharedFlags: map<FourTuple, int>)
      ensures State() == WorkerState(map[], map[], sharedRwnd, sharedFlags)
      ensures WellFormed(State())
    {
      decisions := map[];
      minRtts := map[];
      flowToRwnd := sharedRwnd;
      flags := sharedFlags;
    }

    /** `make_decision`. */
    method MakeDecision(fk: FourTuple, fairness: Label, arr: seq<Packet>, minRtt: int, env: Env)
      returns (err: Option<Error>)
      modifies this
      ensures (State(), if err.Some? then Fatal(err.value) else Decided)
              == DecideStep(old(State()), fk, fairness, arr, minRtt, env)
    {
      var stored := if fk in decisions then decisions[fk] else Undecided;
      var bdp := env.bdpEstimate(arr, minRtt);
      var decided := NewDecision(env.policy, fairness, stored, bdp, StoredIsBarePaced(stored));
      if decided.Err? {
        return Some(decided.error);
      }
      var nd := decided.value;
      decisions := decisions[fk := stored];
      if stored != nd {
        if nd.value.None? {
          if fk !in flowToRwnd {
            return Some(KeyError);
          }
          flowToRwnd := flowToRwnd - {fk};
        } else {
          var v := RoundHalfEven(nd.value.value);
          if v <= 0 {
            return Some(AssertionError);
          }
          nd := Decision(nd.kind, Some(v as real));
          flowToRwnd := flowToRwnd[fk := U32(v)];
        }
        decisions := decisions[fk := nd];
      }
      return None;
    }

    /** The `except` and `else` clauses of the loop body, once the classifier
        has returned `p`. */
    method AfterClassification(fk: FourTuple, arr: seq<Packet>, p: Prediction, rtt1: int, env: Env)
      returns (outcome: Outcome)
      modifies this
      ensures (State(), outcome) == AfterClassify(old(State()), fk, arr, p, rtt1, env)
    {
      match p {
        case AssertionFailure =>
          outcome := BatchSkipped;
        case OtherFailure =>
          outcome := Fatal(ClassifierError);
        case Labels(labels) =>
          minRtts := minRtts[fk := rtt1];
          var fairness := CondenseLabels(labels);
          if fairness.Err? {
            outcome := Fatal(fairness.error);
          } else {
            var err := MakeDecision(fk, fairness.value, arr, rtt1, env);
            outcome := if err.Some? then Fatal(err.value) else Decided;
          }
      }
    }

    /** The body of the `while` loop of `inference_loop` for one queue read. */
    method HandleMessage(msg: Message, env: Env) returns (outcome: Outcome)
      modifies this
      ensures (State(), outcome) == Process(old(State()), msg, env)
    {
      if !msg.Batch? {
        return Skipped;
      }
      var fk, pkts := msg.fourtuple, msg.pkts;
      var arr := PacketsToArray(pkts);
      if arr.Err? {
        return Fatal(arr.error);
      }
      var rtt0 := if fk in minRtts then minRtts[fk] else MaxSize;
      minRtts := minRtts[fk := rtt0];
      var fr := Featurize(env.parseAcks, fk, arr.value, rtt0);
      outcome := AfterClassification(fk, arr.value, env.classify(fr.0), fr.1, env);
      if fk in flags {
        flags := flags[fk := 0];
      } else {
        outcome := Fatal(KeyError);
      }
    }

    /** `inference_loop` over the queue reads `msgs`: it stops at the first fatal
        outcome, or when the reads run out. */
    method InferenceLoop(msgs: seq<Message>, env: Env) returns (err: Option<Error>)
      modifies this
      ensures (State(), err) == Run(old(State()), msgs, env)
      ensures WellFormed(old(State())) ==> WellFormed(State())
    {
      ghost var start := State();
      if WellFormed(start) {
        RunKeepsWellFormed(start, msgs, env);
      }
      var i := 0;
      err := None;
      while i < |msgs|
        invariant 0 <= i <= |msgs|
        invariant Run(start, msgs, env) == Run(State(), msgs[i..], env)
      {
        assert msgs[i..][1..] == msgs[i + 1..];
        var outcome := HandleMessage(msgs[i], env);
        if outcome.Fatal? {
          err := Some(outcome.error);
          return;
        }
        i := i + 1;
      }
    }
  }

  /** A flow labelled ABOVE_FAIR with nothing stored, a BDP estimate of 100000 and
      AIMD is paced at 50000, which is written to the window map. */
  lemma AboveFairScenario(s: WorkerState, fk: FourTuple, arr: seq<Packet>, minRtt: int, env: Env)
    requires env.policy == React(AIMD.Code())
    requires env.bdpEstimate(arr, minRtt) == 100000.0
    requires fk !in s.decisions
    ensures var (s', out) := DecideStep(s, fk, AboveFair, arr, minRtt, env);
            out == Decided && s'.decisions[fk] == Decision(Paced, Some(50000.0))
            && s'.flowToRwnd == s.flowToRwnd[fk := 50000]
  {
    assert RoundHalfEven(50000.0) == 50000;
  }

  /** As written, a flow paced at 50000 that is then labelled APPROX_FAIR is
      unpaced: its window is deleted and NOT_PACED is stored. */
  lemma ApproxFairUnpacesAsWritten(s: WorkerState, fk: FourTuple, arr: seq<Packet>, minRtt: int, env: Env)
    requires env.policy.React?
    requires fk in s.decisions && s.decisions[fk] == Decision(Paced, Some(50000.0))
    requires fk in s.flowToRwnd
    ensures var (s', out) := DecideStep(s, fk, ApproxFair, arr, minRtt, env);
            out == Decided && s'.decisions[fk] == Undecided && fk !in s'.flowToRwnd
  {
  }
}

=== FILE: monitor.dfy ===
/** unfair/runtime/unfair_runtime.py: the single-process monitor. A packet callback
    files each packet under its flow in a table; a checking thread periodically
    selects the flows that have collected enough packets, garbage-collects flows
    that have gone quiet, and for each selected flow runs the classifier, stores
    the label and decides how to pace it.

    The table lock and the per-flow locks are taken with non-blocking try-locks;
    their outcomes are inputs here (booleans and sets of busy flows), which makes
    each operation sequential. Feature computation and the classifier are the
    parameters gathered in `MonitorEnv`; the wall clock is the parameter `now`. */
module Monitor {
  import opened Base
  import opened Fairness
  import opened Addresses

  /** `OLD_THRESH_SEC`: a flow checked longer ago than this is collected. */
  const OldThreshSec: real := 300.0

  /** How many of a flow's most recent packets a check looks at. */
  const CheckedPackets: nat := 100

  /** The record the eBPF program emits for one received packet. */
  datatype PacketEvent = PacketEvent(
    saddr: int, daddr: int, sport: int, dport: int,
    seqNo: int, srttUs: int, tsval: int, tsecr: int,
    totalBytes: int, ihlBytes: int, thlBytes: int, payloadBytes: int, timeUs: int)

  /** The tuple `dat` stored per packet:
      `(seq, srtt_us, tsval, tsecr, total_bytes, ihl_bytes, thl_bytes, payload_bytes, time_us)`. */
  datatype Sample = Sample(
    seqNo: int, srttUs: int, tsval: int, tsecr: int,
    totalBytes: int, ihlBytes: int, thlBytes: int, payloadBytes: int, timeUs: int)

  function FourTupleOf(p: PacketEvent): FourTuple {
    FourTuple(p.saddr, p.daddr, p.sport, p.dport)
  }

  function SampleOf(p: PacketEvent): Sample {
    Sample(p.seqNo, p.srttUs, p.tsval, p.tsecr, p.totalBytes, p.ihlBytes, p.thlBytes,
           p.payloadBytes, p.timeUs)
  }

  /** The fields of a `Flow` object. */
  datatype FlowRecord = FlowRecord(
    fourtuple: FourTuple,
    packets: seq<Sample>,
    minRttUs: int,
    latestTimeSec: real,
    fairness: Label,
    decision: Decision)

  /** `Flow.__init__`: no packets, no RTT seen, never checked, approximately fair,
      not paced. */
  function NewFlow(ft: FourTuple): FlowRecord {
    FlowRecord(ft, [], MaxSize, 0.0, ApproxFair, Undecided)
  }

  /** The monitor's shared state: the flow table with its insertion order (the
      order in which `flows.items()` yields it), the BPF map `flow_to_rwnd`, and
      whether `done` is set. */
  datatype MonitorState = MonitorState(
    flows: map<FourTuple, FlowRecord>,
    order: seq<FourTuple>,
    flowToRwnd: map<FourTuple, int>,
    done: bool)

  predicate NoDup(order: seq<FourTuple>) {
    forall i, j :: 0 <= i < j < |order| ==> order[i] != order[j]
  }

  /** The table lists each flow once, under its own four-tuple, and the monitor
      has never paced a flow. */
  ghost predicate Valid(s: MonitorState) {
    NoDup(s.order)
    && (forall k :: k in s.order <==> k in s.flows)
    && (forall k :: k in s.flows ==> s.flows[k].fourtuple == k && s.flows[k].decision == Undecided)
  }

  // ---------------------------------------------------------------------------
  // Receiving packets

  /** `receive_packet` and `receive_packet_helper`: nothing happens once `done` is
      set, for loopback traffic, or when the table lock is busy; otherwise the flow
      is looked up or created, and the packet is appended when the flow's lock is
      free too. */
  function AfterReceive(s: MonitorState, pkt: PacketEvent, tableLock: bool, flowLock: bool)
    : (r: MonitorState)
    ensures r.flowToRwnd == s.flowToRwnd && r.done == s.done
    ensures Valid(s) ==> Valid(r)
  {
    if s.done || Localhost == pkt.saddr || Localhost == pkt.daddr || !tableLock then s
    else
      var ft := FourTupleOf(pkt);
      var s1 := if ft in s.flows then s
                else s.(flows := s.flows[ft := NewFlow(ft)], order := s.order + [ft]);
      if flowLock then
        s1.(flows := s1.flows[ft := s1.flows[ft].(packets := s1.flows[ft].packets + [SampleOf(pkt)])])
      else s1
  }

  /** Loopback packets and packets arriving after `done` are ignored. */
  lemma ReceiveIgnores(s: MonitorState, pkt: PacketEvent, tableLock: bool, flowLock: bool)
    requires s.done || pkt.saddr == Localhost || pkt.daddr == Localhost
    ensures AfterReceive(s, pkt, tableLock, flowLock) == s
  {
  }

  /** With the table lock, a packet of an unseen flow creates exactly one fresh
      record, at the end of the table's order; a known flow keeps its record.
      Apart from its packets, the record is the fresh one or the old one. */
  lemma ReceiveCreatesOnce(s: MonitorState, pkt: PacketEvent, flowLock: bool)
    requires Valid(s)
    requires !s.done && pkt.saddr != Localhost && pkt.daddr != Localhost
    ensures var r := AfterReceive(s, pkt, true, flowLock);
            var ft := FourTupleOf(pkt);
            ft in r.flows
            && r.order == (if ft in s.flows then s.order else s.order + [ft])
            && r.flows.Keys == s.flows.Keys + {ft}
            && r.flows[ft].(packets := []) == (if ft in s.flows then s.flows[ft] else NewFlow(ft)).(packets := [])
  {
  }

  /** A packet is stored only if both locks are taken: then it is appended to its
      own flow and nothing else changes; otherwise no flow's packets change. */
  lemma ReceiveAppendsOrDrops(s: MonitorState, pkt: PacketEvent, tableLock: bool, flowLock: bool)
    requires !s.done && pkt.saddr != Localhost && pkt.daddr != Localhost
    ensures var r := AfterReceive(s, pkt, tableLock, flowLock);
            var ft := FourTupleOf(pkt);
            (forall k :: k in s.flows && k != ft ==> k in r.flows && r.flows[k] == s.flows[k])
            && (tableLock && flowLock ==>
                  r.flows[ft].packets == (if ft in s.flows then s.flows[ft].packets else []) + [SampleOf(pkt)])
            && (!(tableLock && flowLock) ==>
                  forall k :: k in s.flows ==> k in r.flows && r.flows[k].packets == s.flows[k].packets)
  {
  }

  // ---------------------------------------------------------------------------
  // Selecting flows

  /** The flows of `order` that the first pass of `check_flows` plans to check:
      those whose lock is free and that hold at least `limit` packets. */
  function ToCheck(order: seq<FourTuple>, flows: map<FourTuple, FlowRecord>, limit: int,
                   busy: set<FourTuple>): seq<FourTuple>
  {
    if order == [] then []
    else
      var ft := order[|order| - 1];
      var rest := ToCheck(order[..|order| - 1], flows, limit, busy);
      if ft in flows && ft !in busy && |flows[ft].packets| >= limit then rest + [ft] else rest
  }

  /** Whether a flow that is not due for a check has gone quiet: it has been
      checked, and the last check is more than `OLD_THRESH_SEC` ago. */
  predicate Stale(f: FlowRecord, now: real) {
    f.latestTimeSec != 0.0 && now - f.latestTimeSec > OldThreshSec
  }

  /** The flows of `order` that the first pass plans to remove: those whose lock
      is free, that hold fewer than `limit` packets, and that are stale. */
  function ToRemove(order: seq<FourTuple>, flows: map<FourTuple, FlowRecord>, limit: int,
                    now: real, busy: set<FourTuple>): seq<FourTuple>
  {
    if order == [] then []
    else
      var ft := order[|order| - 1];
      var rest := ToRemove(order[..|order| - 1], flows, limit, now, busy);
      if ft in flows && ft !in busy && |flows[ft].packets| < limit && Stale(flows[ft], now)
      then rest + [ft] else rest
  }

  /** A flow is selected for checking exactly when it is listed, its lock is free
      and it holds at least `limit` packets. */
  lemma {:induction false} ToCheckMembers(order: seq<FourTuple>, flows: map<FourTuple, FlowRecord>,
                                          limit: int, busy: set<FourTuple>, ft: FourTuple)
    ensures ft in ToCheck(order, flows, limit, busy)
            <==> ft in order && ft in flows && ft !in busy && |flows[ft].packets| >= limit
  {
    if order != [] {
      var init := order[..|order| - 1];
      ToCheckMembers(init, flows, limit, busy, ft);
      assert order == init + [order[|order| - 1]];
    }
  }

  /** A flow is selected for removal exactly when it is listed, its lock is free,
      it holds fewer than `limit` packets and it is stale. */
  lemma {:induction false} ToRemoveMembers(order: seq<FourTuple>, flows: map<FourTuple, FlowRecord>,
                                           limit: int, now: real, busy: set<FourTuple>, ft: FourTuple)
    ensures ft in ToRemove(order, flows, limit, now, busy)
            <==> ft in order && ft in flows && ft !in busy && |flows[ft].packets| < limit
                 && Stale(flows[ft], now)
  {
    if order != [] {
      var init := order[..|order| - 1];
      ToRemoveMembers(init, flows, limit, now, busy, ft);
      assert order == init + [order[|order| - 1]];
    }
  }

  /** A flow that has never been checked is never collected, however long it
      stays quiet: only a check sets `latest_time_sec`. */
  lemma NeverCheckedNeverRemoved(order: seq<FourTuple>, flows: map<FourTuple, FlowRecord>,
                                 limit: int, now: real, busy: set<FourTuple>, ft: FourTuple)
    requires ft in flows && flows[ft].latestTimeSec == 0.0
    ensures ft !in ToRemove(order, flows, limit, now, busy)
  {
    ToRemoveMembers(order, flows, limit, now, busy, ft);
  }

  /** The two lists are disjoint, and both lists hold each flow at most once. */
  lemma {:induction false} SelectionsDisjoint(order: seq<FourTuple>, flows: map<FourTuple, FlowRecord>,
                                              limit: int, now: real, busy: set<FourTuple>)
    requires NoDup(order)
    ensures NoDup(ToCheck(order, flows, limit, busy))
    ensures NoDup(ToRemove(order, flows, limit, now, busy))
    ensures forall ft :: ft in ToCheck(order, flows, limit, busy)
                         ==> ft !in ToRemove(order, flows, limit, now, busy)
  {
    forall ft | ft in ToCheck(order, flows, limit, busy)
      ensures ft !in ToRemove(order, flows, limit, now, busy)
    {
      ToCheckMembers(order, flows, limit, busy, ft);
      ToRemoveMembers(order, flows, limit, now, busy, ft);
    }
    if order != [] {
      var init := order[..|order| - 1];
      var last := order[|order| - 1];
      assert NoDup(init);
      SelectionsDisjoint(init, flows, limit, now, busy);
      assert last !in init;
      ToCheckMembers(init, flows, limit, busy, last);
      ToRemoveMembers(init, flows, limit, now, busy, last);
    }
  }

  // ---------------------------------------------------------------------------
  // Garbage collection

  /** `order` without `ft`. */
  function Without(order: seq<FourTuple>, ft: FourTuple): (r: seq<FourTuple>)
    ensures forall k :: k in r <==> k in order && k != ft
  {
    if order == [] then []
    else (if order[0] == ft then [] else [order[0]]) + Without(order[1..], ft)
  }

  /** Removing an element keeps a list free of duplicates. */
  lemma {:induction false} WithoutNoDup(order: seq<FourTuple>, ft: FourTuple)
    requires NoDup(order)
    ensures NoDup(Without(order, ft))
  {
    if order != [] {
      assert NoDup(order[1..]);
      WithoutNoDup(order[1..], ft);
      assert order[0] !in order[1..];
      assert order[0] !in Without(order[1..], ft);
    }
  }

  /** The garbage-collection loop of `check_flows` (lines 234-237): each listed
      flow is deleted from the table and then from `flow_to_rwnd`; either `del`
      raises KeyError when the key is missing, which ends the pass. */
  function Collect(s: MonitorState, toRemove: seq<FourTuple>): (r: (MonitorState, Option<Error>))
    ensures r.1.Some? ==> r.1 == Some(KeyError)
    ensures r.0.done == s.done
    ensures r.0.flows.Keys <= s.flows.Keys && r.0.flowToRwnd.Keys <= s.flowToRwnd.Keys
    ensures forall k :: k in r.0.flows ==> r.0.flows[k] == s.flows[k]
    ensures forall k :: k in r.0.flowToRwnd ==> r.0.flowToRwnd[k] == s.flowToRwnd[k]
    decreases |toRemove|
  {
    if toRemove == [] then (s, None)
    else
      var ft := toRemove[0];
      if ft !in s.flows then (s, Some(KeyError))
      else
        var s1 := s.(flows := s.flows - {ft}, order := Without(s.order, ft));
        if ft !in s1.flowToRwnd then (s1, Some(KeyError))
        else Collect(s1.(flowToRwnd := s1.flowToRwnd - {ft}), toRemove[1..])
  }

  /** When collection completes, every listed flow is gone from both the table and
      `flow_to_rwnd`, and every other entry of either is kept. */
  lemma {:induction false} CollectRemovesFromBoth(s: MonitorState, toRemove: seq<FourTuple>)
    requires Collect(s, toRemove).1.None?
    ensures var r := Collect(s, toRemove).0;
            forall k :: (k in r.flows <==> k in s.flows && k !in toRemove)
                        && (k in r.flowToRwnd <==> k in s.flowToRwnd && k !in toRemove)
    decreases |toRemove|
  {
    if toRemove != [] {
      var ft := toRemove[0];
      var s1 := s.(flows := s.flows - {ft}, order := Without(s.order, ft), flowToRwnd := s.flowToRwnd - {ft});
      CollectRemovesFromBoth(s1, toRemove[1..]);
      assert forall k :: k in toRemove <==> k == ft || k in toRemove[1..];
    }
  }

  /** Collection keeps the table well formed. */
  lemma {:induction false} CollectKeepsValid(s: MonitorState, toRemove: seq<FourTuple>)
    requires Valid(s)
    ensures Valid(Collect(s, toRemove).0)
    decreases |toRemove|
  {
    if toRemove != [] && toRemove[0] in s.flows {
      var ft := toRemove[0];
      WithoutNoDup(s.order, ft);
      var s1 := s.(flows := s.flows - {ft}, order := Without(s.order, ft));
      assert Valid(s1);
      if ft in s1.flowToRwnd {
        CollectKeepsValid(s1.(flowToRwnd := s1.flowToRwnd - {ft}), toRemove[1..]);
      }
    }
  }

  // ---------------------------------------------------------------------------
  // Checking one flow

  /** What the monitor relies on but this model does not define:
      `gen_features.parse_received_acks` (feature rows and the updated minimum
      RTT) and the classifier. */
  datatype MonitorEnv = MonitorEnv(
    parseAcks: (FourTuple, seq<Sample>, int) -> (seq<Row>, int),
    classify: seq<Row> -> Prediction)

  /** The decision `make_decision` computes (lines 305-333). Its parameter
      `reaction_strategy` is the configured strategy's name, a string, so looking
      up `react_down` or `react_up` on it raises AttributeError. `alreadyPaced` is
      the outcome of the test at line 315. */
  function MonitorDecision(fairness: Label, stored: Decision, alreadyPaced: bool): (r: Result<Decision>)
    ensures r.Err? ==> r.error == AttributeError
    ensures fairness == AboveFair ==> r.Err?
    ensures r.Ok? ==> r.value == stored || r.value == Undecided
  {
    if fairness == AboveFair then Err(AttributeError)
    else if alreadyPaced then
      if fairness == BelowFair then Err(AttributeError) else Ok(stored)
    else Ok(Undecided)
  }

  /** The write of `make_decision` (lines 335-338): nothing when the decision is
      unchanged; otherwise the rounded value as a signed 32-bit window, where
      rounding a missing value raises TypeError. */
  function MonitorWrite(stored: Decision, nd: Decision): (r: Result<Option<int>>)
    ensures stored == nd <==> r == Ok(None)
    ensures r.Err? <==> stored != nd && nd.value.None?
    ensures r.Err? ==> r.error == TypeError
    ensures r.Ok? && r.value.Some? ==> -TwoTo31 <= r.value.value < TwoTo31
  {
    if stored == nd then Ok(None)
    else if nd.value.None? then Err(TypeError)
    else Ok(Some(I32(RoundHalfEven(nd.value.value))))
  }

  /** As written, `make_decision` never writes a window: ABOVE_FAIR fails before
      deciding, every other label decides NOT_PACED, and a change to NOT_PACED
      fails in `round`. With the test read as "the stored decision is PACED" it
      still never writes. */
  lemma MonitorNeverWrites(fairness: Label, stored: Decision, alreadyPaced: bool)
    ensures var d := MonitorDecision(fairness, stored, alreadyPaced);
            d.Ok? ==> !(MonitorWrite(stored, d.value).Ok? && MonitorWrite(stored, d.value).value.Some?)
  {
  }

  /** `check_flow` on one record, under the flow's lock (lines 360-381): keep the
      last 100 packets; fail with ValueError if there are none; stamp the check
      time; featurize, which stores the new minimum RTT; classify; store the
      condensed label; decide; and clear the packets. An exception leaves the
      steps before it in place. The window write of `make_decision` never takes
      place (`MonitorNeverWrites`), so the map is not touched here. */
  function CheckFlowSpec(ft: FourTuple, rec: FlowRecord, now: real, env: MonitorEnv)
    : (r: (FlowRecord, Option<Error>))
    ensures r.0.fourtuple == rec.fourtuple
    ensures |r.0.packets| <= CheckedPackets
    ensures r.1.None? ==> r.0.packets == [] && r.0.latestTimeSec == now && r.0.decision == Undecided
    ensures r.0.decision == rec.decision || r.0.decision == Undecided
  {
    var pkts := if |rec.packets| > CheckedPackets then rec.packets[|rec.packets| - CheckedPackets..]
                else rec.packets;
    var rec1 := rec.(packets := pkts);
    if pkts == [] then (rec1, Some(ValueError))
    else
      var featurized := env.parseAcks(ft, pkts, rec.minRttUs);
      var rec2 := rec1.(latestTimeSec := now, minRttUs := featurized.1);
      match env.classify(featurized.0)
      case AssertionFailure => (rec2, Some(AssertionError))
      case OtherFailure => (rec2, Some(ClassifierError))
      case Labels(labels) =>
        match CondenseLabels(labels)
        case Err(e) => (rec2, Some(e))
        case Ok(fairness) =>
          var rec3 := rec2.(fairness := fairness);
          match MonitorDecision(fairness, rec3.decision, StoredIsBarePaced(rec3.decision))
          case Err(e) => (rec3, Some(e))
          case Ok(nd) =>
            match MonitorWrite(rec3.decision, nd)
            case Err(e) => (rec3, Some(e))
            case Ok(_) => (rec3.(decision := nd, packets := []), None)
  }

  /** A check that gets past the empty-packet test keeps the most recent packets
      (all of them when there are at most 100), stamps the check time and stores
      the featurizer's minimum RTT, whatever happens after, even when the
      classifier then fails. */
  lemma CheckFlowTruncatesAndStamps(ft: FourTuple, rec: FlowRecord, now: real, env: MonitorEnv)
    requires rec.packets != []
    ensures var r := CheckFlowSpec(ft, rec, now, env);
            r.0.latestTimeSec == now
            && r.0.minRttUs == env.parseAcks(ft, LastN(rec.packets, CheckedPackets), rec.minRttUs).1
            && (r.1.Some? ==> r.0.packets == LastN(rec.packets, CheckedPackets))
  {
    var pkts := LastN(rec.packets, CheckedPackets);
    assert pkts == if |rec.packets| > CheckedPackets then rec.packets[|rec.packets| - CheckedPackets..]
                   else rec.packets;
    var featurized := env.parseAcks(ft, pkts, rec.minRttUs);
    var rec2 := rec.(packets := pkts, latestTimeSec := now, minRttUs := featurized.1);
    assert CheckFlowSpec(ft, rec, now, env).0.minRttUs == rec2.minRttUs;
  }

  /** The last label is stored in every case. A flow whose condensed label is
      ABOVE_FAIR then fails in `make_decision` with AttributeError, keeping its
      truncated packets and its unpaced decision; any other label leaves an
      unpaced flow unpaced and clears the packets. */
  lemma CheckFlowOutcome(ft: FourTuple, rec: FlowRecord, now: real, env: MonitorEnv, labels: seq<Label>)
    requires rec.packets != [] && rec.decision == Undecided
    requires env.classify(env.parseAcks(ft, LastN(rec.packets, CheckedPackets), rec.minRttUs).0) == Labels(labels)
    requires labels != []
    ensures var r := CheckFlowSpec(ft, rec, now, env);
            r.0.fairness == labels[|labels| - 1]
            && r.0.decision == Undecided
            && if labels[|labels| - 1] == AboveFair
               then r.1 == Some(AttributeError) && r.0.packets == LastN(rec.packets, CheckedPackets)
               else r.1.None? && r.0.packets == []
  {
  }

  /** `check_flow` on the monitor state. */
  function CheckFlowState(s: MonitorState, ft: FourTuple, now: real, env: MonitorEnv)
    : (r: (MonitorState, Option<Error>))
    requires ft in s.flows
    ensures r.0.flowToRwnd == s.flowToRwnd && r.0.order == s.order && r.0.done == s.done
    ensures r.0.flows.Keys == s.flows.Keys
    ensures forall k :: k in s.flows && k != ft ==> r.0.flows[k] == s.flows[k]
    ensures Valid(s) ==> Valid(r.0)
  {
    var c := CheckFlowSpec(ft, s.flows[ft], now, env);
    (s.(flows := s.flows[ft := c.0]), c.1)
  }

  /** The second pass of `check_flows` (lines 240-252) over `toCheck`: a flow
      whose lock is busy is skipped, nothing is checked when inference is
      disabled, and an exception in a check ends the pass. */
  function CheckAll(s: MonitorState, toCheck: seq<FourTuple>, now: real, busy: set<FourTuple>,
                    disableInference: bool, env: MonitorEnv): (r: (MonitorState, Option<Error>))
    ensures r.0.flowToRwnd == s.flowToRwnd && r.0.order == s.order && r.0.done == s.done
    ensures Valid(s) ==> Valid(r.0)
    decreases |toCheck|
  {
    if toCheck == [] then (s, None)
    else
      var ft := toCheck[0];
      if ft !in s.flows then (s, Some(KeyError))
      else if ft in busy || disableInference then
        CheckAll(s, toCheck[1..], now, busy, disableInference, env)
      else
        var c := CheckFlowState(s, ft, now, env);
        if c.1.Some? then c else CheckAll(c.0, toCheck[1..], now, busy, disableInference, env)
  }

  /** `check_flows`: select, collect, then check. */
  function CheckFlowsSpec(s: MonitorState, limit: int, now: real, busy: set<FourTuple>,
                          busyAgain: set<FourTuple>, disableInference: bool, env: MonitorEnv)
    : (r: (MonitorState, Option<Error>))
  {
    var toCheck := ToCheck(s.order, s.flows, limit, busy);
    var toRemove := ToRemove(s.order, s.flows, limit, now, busy);
    var c := Collect(s, toRemove);
    if c.1.Some? then c else CheckAll(c.0, toCheck, now, busyAgain, disableInference, env)
  }

  /** One pass keeps the table well formed and never adds to or changes
      `flow_to_rwnd`: the monitor only ever deletes windows. */
  lemma CheckFlowsOnlyDeletesWindows(s: MonitorState, limit: int, now: real, busy: set<FourTuple>,
                                     busyAgain: set<FourTuple>, disableInference: bool, env: MonitorEnv)
    requires Valid(s)
    ensures var r := CheckFlowsSpec(s, limit, now, busy, busyAgain, disableInference, env).0;
            Valid(r)
            && r.flowToRwnd.Keys <= s.flowToRwnd.Keys
            && (forall k :: k in r.flowToRwnd ==> r.flowToRwnd[k] == s.flowToRwnd[k])
  {
    CollectKeepsValid(s, ToRemove(s.order, s.flows, limit, now, busy));
  }

  /** A flow that is due for removal but has no window in `flow_to_rwnd` (as is
      the case for every flow, since the monitor never writes one) ends the pass
      with KeyError, before any flow is checked. */
  lemma CollectingUnpacedFlowFails(s: MonitorState, limit: int, now: real, busy: set<FourTuple>,
                                   busyAgain: set<FourTuple>, disableInference: bool, env: MonitorEnv)
    requires Valid(s)
    requires var toRemove := ToRemove(s.order, s.flows, limit, now, busy);
             toRemove != [] && toRemove[0] !in s.flowToRwnd
    ensures CheckFlowsSpec(s, limit, now, busy, busyAgain, disableInference, env).1 == Some(KeyError)
  {
    var toRemove := ToRemove(s.order, s.flows, limit, now, busy);
    ToRemoveMembers(s.order, s.flows, limit, now, busy, toRemove[0]);
  }

  /** The monitor's state. */
  class Monitor {
    var flows: map<FourTuple, FlowRecord>
    var order: seq<FourTuple>
    var flowToRwnd: map<FourTuple, int>
    var done: bool

    function State(): MonitorState
      reads this
    {
      MonitorState(flows, order, flowToRwnd, done)
    }

    /** An empty table over the shared window map. */
    constructor (sharedRwnd: map<FourTuple, int>)
      ensures State() == MonitorState(map[], [], sharedRwnd, false)
      ensures Valid(State())
    {
      flows := map[];
      order := [];
      flowToRwnd := sharedRwnd;
      done := false;
    }

    /** `receive_packet`; `tableLock` and `flowLock` are the outcomes of the two
        try-locks. */
    method ReceivePacket(pkt: PacketEvent, tableLock: bool, flowLock: bool)
      modifies this
      ensures State() == AfterReceive(old(State()), pkt, tableLock, flowLock)
    {
      if done || Localhost == pkt.saddr || Localhost == pkt.daddr || !tableLock {
        return;
      }
      var ft := FourTupleOf(pkt);
      if ft !in flows {
        flows := flows[ft := NewFlow(ft)];
        order := order + [ft];
      }
      if flowLock {
        var flow := flows[ft];
        flows := flows[ft := flow.(packets := flow.packets + [SampleOf(pkt)])];
      }
    }

    /** `check_flow`. */
    method CheckFlow(ft: FourTuple, now: real, env: MonitorEnv) returns (err: Option<Error>)
      requires ft in flows
      modifies this
      ensures (State(), err) == CheckFlowState(old(State()), ft, now, env)
    {
      var flow := flows[ft];
      if |flow.packets| > CheckedPackets {
        flow := flow.(packets := flow.packets[|flow.packets| - CheckedPackets..]);
      }
      if flow.packets == [] {
        flows := flows[ft := flow];
        return Some(ValueError);
      }
      var featurized := env.parseAcks(ft, flow.packets, flow.minRttUs);
      flow := flow.(latestTimeSec := now, minRttUs := featurized.1);
      var prediction := env.classify(featurized.0);
      if !prediction.Labels? {
        flows := flows[ft := flow];
        return Some(if prediction.AssertionFailure? then AssertionError else ClassifierError);
      }
      var fairness := CondenseLabels(prediction.labels);
      if fairness.Err? {
        flows := flows[ft := flow];
        return Some(fairness.error);
      }
      flow := flow.(fairness := fairness.value);
      var nd := MonitorDecision(fairness.value, flow.decision, StoredIsBarePaced(flow.decision));
      if nd.Err? {
        flows := flows[ft := flow];
        return Some(nd.error);
      }
      var write := MonitorWrite(flow.decision, nd.value);
      if write.Err? {
        flows := flows[ft := flow];
        return Some(write.error);
      }
      flows := flows[ft := flow.(decision := nd.value, packets := [])];
      return None;
    }

    /** The first pass of `check_flows` (lines 211-231), which changes nothing. */
    method SelectFlows(limit: int, now: real, busy: set<FourTuple>)
      returns (toCheck: seq<FourTuple>, toRemove: seq<FourTuple>)
      requires forall k :: k in order ==> k in flows
      ensures toCheck == ToCheck(order, flows, limit, busy)
      ensures toRemove == ToRemove(order, flows, limit, now, busy)
    {
      toCheck, toRemove := [], [];
      var i := 0;
      while i < |order|
        invariant 0 <= i <= |order|
        invariant toCheck == ToCheck(order[..i], flows, limit, busy)
        invariant toRemove == ToRemove(order[..i], flows, limit, now, busy)
      {
        var ft := order[i];
        assert order[..i + 1][..i] == order[..i];
        var flow := flows[ft];
        if ft !in busy {
          if |flow.packets| >= limit {
            toCheck := toCheck + [ft];
          } else if flow.latestTimeSec != 0.0 && now - flow.latestTimeSec > OldThreshSec {
            toRemove := toRemove + [ft];
          }
        }
        i := i + 1;
      }
      assert order[..|order|] == order;
    }

    /** The garbage collection of `check_flows` (lines 234-237). */
    method CollectFlows(toRemove: seq<FourTuple>) returns (err: Option<Error>)
      modifies this
      ensures (State(), err) == Collect(old(State()), toRemove)
    {
      ghost var start := State();
      var j := 0;
      while j < |toRemove|
        invariant 0 <= j <= |toRemove|
        invariant Collect(start, toRemove) == Collect(State(), toRemove[j..])
      {
        var ft := toRemove[j];
        assert toRemove[j..][1..] == toRemove[j + 1..];
        if ft !in flows {
          return Some(KeyError);
        }
        flows := flows - {ft};
        order := Without(order, ft);
        if ft !in flowToRwnd {
          return Some(KeyError);
        }
        flowToRwnd := flowToRwnd - {ft};
        j := j + 1;
      }
      return None;
    }

    /** The second pass of `check_flows` (lines 240-252). */
    method CheckSelected(toCheck: seq<FourTuple>, now: real, busy: set<FourTuple>,
                         disableInference: bool, env: MonitorEnv) returns (err: Option<Error>)
      modifies this
      ensures (State(), err) == CheckAll(old(State()), toCheck, now, busy, disableInference, env)
    {
      ghost var start := State();
      var k := 0;
      while k < |toCheck|
        invariant 0 <= k <= |toCheck|
        invariant CheckAll(start, toCheck, now, busy, disableInference, env)
                  == CheckAll(State(), toCheck[k..], now, busy, disableInference, env)
      {
        var ft := toCheck[k];
        assert toCheck[k..][1..] == toCheck[k + 1..];
        if ft !in flows {
          return Some(KeyError);
        }
        if ft !in busy && !disableInference {
          err := CheckFlow(ft, now, env);
          if err.Some? {
            return;
          }
        }
        k := k + 1;
      }
      return None;
    }

    /** `check_flows`. `busy` holds the flows whose lock is taken during the first
        pass, `busyAgain` those whose lock is taken during the second; `limit` is
        the packet count that makes a flow due, which the program asserts is
        positive at start-up. */
    method CheckFlows(limit: int, now: real, busy: set<FourTuple>, busyAgain: set<FourTuple>,
                      disableInference: bool, env: MonitorEnv) returns (err: Option<Error>)
      requires limit > 0
      requires Valid(State())
      modifies this
      ensures (State(), err) == CheckFlowsSpec(old(State()), limit, now, busy, busyAgain, disableInference, env)
      ensures Valid(State())
    {
      CheckFlowsOnlyDeletesWindows(State(), limit, now, busy, busyAgain, disableInference, env);
      var toCheck, toRemove := SelectFlows(limit, now, busy);
      err := CollectFlows(toRemove);
      if err.Some? {
        return;
      }
      err := CheckSelected(toCheck, now, busyAgain, disableInference, env);
    }
  }
}

=== FILE: reaction_strategy.dfy ===
/** ratemon/runtime/python/reaction_strategy.py: the two feedback laws that move a
    flow's target window up or down, the string names of those laws, and the static
    RWND schedule that can replace them (parsed once from a CSV file, then looked up
    on every control cycle). The wall clock is a parameter (`now`), and the
    `float`/`int` conversions of the CSV tokens are the parameters `parseFloat` and
    `parseInt`. */
module ReactionStrategy {
  import opened Base
  import opened Text
  import opened Sorting

  /** The IntEnum `ReactionStrategy`. */
  datatype Strategy = AIMD | MIMD {
    /** The enum member's integer value. */
    function Code(): int {
      match this
      case AIMD => 0
      case MIMD => 1
    }
  }

  /** The module-level list `ALL`, in declaration order. */
  const All: seq<Strategy> := [AIMD, MIMD]

  /** AIMD's additive step (`1e6`). */
  const AimdStep: real := 1000000.0
  /** MIMD's increase factor. */
  const MimdUp: real := 1.3
  /** AIMD's decrease divisor. */
  const AimdDown: real := 2.0
  /** MIMD's decrease divisor. */
  const MimdDown: real := 1.75

  /** `to_str`: the lookup in `_STRATEGY_TO_STR`. The argument is any integer,
      since an IntEnum member and its value are the same dictionary key; anything
      but the two members' values is a KeyError. */
  function ToStr(strategy: int): (r: Result<string>)
    ensures r.Ok? <==> strategy == AIMD.Code() || strategy == MIMD.Code()
    ensures r.Err? ==> r.error == KeyError
    ensures r.Ok? ==> |r.value| == 4
  {
    if strategy == AIMD.Code() then Ok("aimd")
    else if strategy == MIMD.Code() then Ok("mimd")
    else Err(KeyError)
  }

  /** `to_strat`: the lookup in the inverted dictionary `_STR_TO_STRATEGY`. */
  function ToStrat(name: string): (r: Result<Strategy>)
    ensures r.Ok? <==> name == "aimd" || name == "mimd"
    ensures r.Err? ==> r.error == KeyError
  {
    if name == "aimd" then Ok(AIMD)
    else if name == "mimd" then Ok(MIMD)
    else Err(KeyError)
  }

  /** Every strategy survives the trip through its name. */
  lemma StrategyRoundTrip(s: Strategy)
    ensures ToStr(s.Code()).Ok?
    ensures ToStrat(ToStr(s.Code()).value) == Ok(s)
  {
  }

  /** Every accepted name survives the trip through its strategy. */
  lemma NameRoundTrip(name: string)
    requires ToStrat(name).Ok?
    ensures ToStr(ToStrat(name).value.Code()) == Ok(name)
  {
  }

  /** `choices()`: the names of `ALL`, in order. */
  function Choices(): (r: seq<string>)
    ensures r == ["aimd", "mimd"]
  {
    seq(|All|, i requires 0 <= i < |All| => ToStr(All[i].Code()).value)
  }

  /** `react_up`: AIMD adds a fixed step, MIMD scales by 1.3; any other
      strategy value is a RuntimeError. */
  function ReactUp(strategy: int, current: real): (r: Result<real>)
    ensures r.Ok? <==> strategy == AIMD.Code() || strategy == MIMD.Code()
    ensures r.Err? ==> r.error == RuntimeError
    ensures strategy == AIMD.Code() ==> r.Ok? && r.value - current == AimdStep
    ensures strategy == MIMD.Code() ==> r.Ok? && r.value == current * MimdUp
    ensures r.Ok? && current > 0.0 ==> r.value > current
  {
    if strategy == AIMD.Code() then Ok(current + AimdStep)
    else if strategy == MIMD.Code() then Ok(current * MimdUp)
    else Err(RuntimeError)
  }

  /** `react_down`: AIMD halves, MIMD divides by 1.75; any other strategy value
      is a RuntimeError. A positive value stays positive and strictly shrinks. */
  function ReactDown(strategy: int, current: real): (r: Result<real>)
    ensures r.Ok? <==> strategy == AIMD.Code() || strategy == MIMD.Code()
    ensures r.Err? ==> r.error == RuntimeError
    ensures strategy == AIMD.Code() ==> r.Ok? && r.value * AimdDown == current
    ensures strategy == MIMD.Code() ==> r.Ok? && r.value * MimdDown == current
    ensures r.Ok? && current > 0.0 ==> 0.0 < r.value < current
  {
    if strategy == AIMD.Code() then Ok(current / AimdDown)
    else if strategy == MIMD.Code() then Ok(current / MimdDown)
    else Err(RuntimeError)
  }

  /** Both laws are monotone: a larger current value never yields a smaller
      target, in either direction. */
  lemma ReactMonotone(strategy: Strategy, x: real, y: real)
    requires x <= y
    ensures ReactUp(strategy.Code(), x).value <= ReactUp(strategy.Code(), y).value
    ensures ReactDown(strategy.Code(), x).value <= ReactDown(strategy.Code(), y).value
  {
  }

  /** For a positive value, going down and going up bracket it strictly. */
  lemma ReactBrackets(strategy: Strategy, current: real)
    requires current > 0.0
    ensures 0.0 < ReactDown(strategy.Code(), current).value < current
    ensures current < ReactUp(strategy.Code(), current).value
  {
  }

  // ---------------------------------------------------------------------------
  // The static RWND schedule.

  /** One schedule entry: an absolute start time (seconds) and a window (bytes). */
  datatype Entry = Entry(start: real, rwnd: int)

  function StartKey(e: Entry): real {
    e.start
  }

  /** One line of the schedule file, after `line.strip()`: an empty line fails
      when its first character is read (IndexError), a `#` line is skipped, a line
      that does not split into exactly two comma-separated tokens fails its
      assertion, and a token that does not convert is a ValueError. The start time
      is offset by the parse-time clock. */
  function ParseLine(raw: string, now: real, parseFloat: string -> Option<real>,
                     parseInt: string -> Option<int>): (r: Result<Option<Entry>>)
    ensures Strip(raw) == [] ==> r == Err(IndexError)
    ensures Strip(raw) != [] && Strip(raw)[0] == '#' ==> r == Ok(None)
    ensures Strip(raw) != [] && Strip(raw)[0] != '#' && |Split(Strip(raw), ',')| != 2
            ==> r == Err(AssertionError)
    ensures r.Ok? && r.value.Some? ==>
              var toks := Split(Strip(raw), ',');
              |toks| == 2
              && parseFloat(toks[0]) == Some(r.value.value.start - now)
              && parseInt(toks[1]) == Some(r.value.value.rwnd)
  {
    var line := Strip(raw);
    if |line| == 0 then Err(IndexError)
    else if line[0] == '#' then Ok(None)
    else
      var toks := Split(line, ',');
      if |toks| != 2 then Err(AssertionError)
      else
        match parseFloat(toks[0])
        case None => Err(ValueError)
        case Some(offset) =>
          match parseInt(toks[1])
          case None => Err(ValueError)
          case Some(rwnd) => Ok(Some(Entry(now + offset, rwnd)))
  }

  /** The entries appended while reading `lines` in order, or the error of the
      first line that fails. */
  function ParsedEntries(lines: seq<string>, now: real, parseFloat: string -> Option<real>,
                         parseInt: string -> Option<int>): Result<seq<Entry>>
  {
    if lines == [] then Ok([])
    else
      match ParsedEntries(lines[..|lines| - 1], now, parseFloat, parseInt)
      case Err(e) => Err(e)
      case Ok(entries) =>
        match ParseLine(lines[|lines| - 1], now, parseFloat, parseInt)
        case Err(e) => Err(e)
        case Ok(None) => Ok(entries)
        case Ok(Some(entry)) => Ok(entries + [entry])
  }

  /** Every parsed entry comes from one line of the file. */
  lemma {:induction false} ParsedEntriesFromLines(lines: seq<string>, now: real,
                                                  parseFloat: string -> Option<real>,
                                                  parseInt: string -> Option<int>, e: Entry)
    requires ParsedEntries(lines, now, parseFloat, parseInt).Ok?
    requires e in ParsedEntries(lines, now, parseFloat, parseInt).value
    ensures exists i :: 0 <= i < |lines| && ParseLine(lines[i], now, parseFloat, parseInt) == Ok(Some(e))
  {
    var init := lines[..|lines| - 1];
    var entries := ParsedEntries(init, now, parseFloat, parseInt).value;
    if e in entries {
      ParsedEntriesFromLines(init, now, parseFloat, parseInt, e);
      var i :| 0 <= i < |init| && ParseLine(init[i], now, parseFloat, parseInt) == Ok(Some(e));
      assert lines[i] == init[i];
    } else {
      assert ParseLine(lines[|lines| - 1], now, parseFloat, parseInt) == Ok(Some(e));
    }
  }

  /** Once a line fails, reading further lines keeps that first error. */
  lemma {:induction false} FirstErrorSticks(lines: seq<string>, i: nat, now: real,
                                            parseFloat: string -> Option<real>,
                                            parseInt: string -> Option<int>)
    requires i <= |lines|
    requires ParsedEntries(lines[..i], now, parseFloat, parseInt).Err?
    ensures ParsedEntries(lines, now, parseFloat, parseInt)
            == ParsedEntries(lines[..i], now, parseFloat, parseInt)
    decreases |lines| - i
  {
    if i < |lines| {
      assert lines[..i + 1][..i] == lines[..i];
      FirstErrorSticks(lines, i + 1, now, parseFloat, parseInt);
    } else {
      assert lines[..i] == lines;
    }
  }

  /** What `parse_static_rwnd_schedule` returns for the parsed entries: at least
      one entry is asserted, and the list is sorted by start time. */
  function SortedSchedule(parsed: Result<seq<Entry>>): Result<seq<Entry>> {
    match parsed
    case Err(e) => Err(e)
    case Ok(entries) =>
      if entries == [] then Err(AssertionError) else Ok(SortBy(entries, StartKey))
  }

  /** `parse_static_rwnd_schedule`: reads the lines in order, appending one entry
      per data line, then sorts. The result is non-empty, ordered by start time,
      and a permutation of the entries read. */
  method ParseStaticRwndSchedule(lines: seq<string>, now: real,
                                 parseFloat: string -> Option<real>,
                                 parseInt: string -> Option<int>)
    returns (r: Result<seq<Entry>>)
    ensures r == SortedSchedule(ParsedEntries(lines, now, parseFloat, parseInt))
    ensures r.Ok? ==> |r.value| > 0 && SortedBy(r.value, StartKey)
    ensures r.Ok? ==> multiset(r.value) == multiset(ParsedEntries(lines, now, parseFloat, parseInt).value)
    ensures ParsedEntries(lines, now, parseFloat, parseInt) == Ok([]) ==> r == Err(AssertionError)
  {
    var schedule: seq<Entry> := [];
    var i := 0;
    while i < |lines|
      invariant 0 <= i <= |lines|
      invariant ParsedEntries(lines[..i], now, parseFloat, parseInt) == Ok(schedule)
    {
      assert lines[..i + 1][..i] == lines[..i];
      var parsed := ParseLine(lines[i], now, parseFloat, parseInt);
      if parsed.Err? {
        FirstErrorSticks(lines, i + 1, now, parseFloat, parseInt);
        return Err(parsed.error);
      }
      if parsed.value.Some? {
        schedule := schedule + [parsed.value.value];
      }
      i := i + 1;
    }
    assert lines[..i] == lines;
    if |schedule| == 0 {
      return Err(AssertionError);
    }
    r := Ok(SortBy(schedule, StartKey));
  }

  /** The loop of `get_static_rwnd`: drops the head while the clock is strictly
      past its start and more than one entry remains. What is left is a non-empty
      suffix; everything dropped had already started; and what is left starts at
      or after `now` unless only the last entry remains. */
  function Prune(schedule: seq<Entry>, now: real): (rest: seq<Entry>)
    requires |schedule| > 0
    ensures 0 < |rest| <= |schedule| && rest == schedule[|schedule| - |rest|..]
    ensures forall j :: 0 <= j < |schedule| - |rest| ==> schedule[j].start < now
    ensures |rest| == 1 || now <= rest[0].start
  {
    if now > schedule[0].start && |schedule| > 1 then Prune(schedule[1..], now)
    else schedule
  }

  /** `get_static_rwnd`: the window of the first entry left after pruning; an empty
      schedule fails the assertion. The pruning rebinds a local name only, so the
      caller's schedule is never shortened. */
  function GetStaticRwnd(schedule: seq<Entry>, now: real): (r: Result<int>)
    ensures r.Err? <==> schedule == []
    ensures r.Err? ==> r.error == AssertionError
    ensures r.Ok? ==> exists i :: 0 <= i < |schedule| && r.value == schedule[i].rwnd
  {
    if schedule == [] then Err(AssertionError)
    else
      var rest := Prune(schedule, now);
      assert rest[0] == schedule[|schedule| - |rest|];
      Ok(rest[0].rwnd)
  }

  /** The lookup returns the window of the first entry whose start is at or after
      `now` -- the upcoming entry, not the one in force -- or the last entry's
      window when every entry has started. */
  lemma GetStaticRwndIsUpcoming(schedule: seq<Entry>, now: real, i: nat)
    requires i < |schedule|
    requires forall j :: 0 <= j < i ==> schedule[j].start < now
    requires now <= schedule[i].start || i == |schedule| - 1
    ensures GetStaticRwnd(schedule, now) == Ok(schedule[i].rwnd)
  {
    var rest := Prune(schedule, now);
    var k := |schedule| - |rest|;
    assert rest[0] == schedule[k];
    assert schedule[k].start < now || k == |schedule| - 1 || now <= schedule[k].start;
    assert k == i;
  }

  /** A string with no white space at either end is its own `strip()`. */
  lemma StripUntrimmed(s: string)
    requires s != [] && !IsSpace(s[0]) && !IsSpace(s[|s| - 1])
    ensures Strip(s) == s
  {
    assert LeadingSpaces(s) == 0;
    assert TrailingSpaces(s) == 0;
  }

  /** A data line `<offset>,<rwnd>` with separator-free tokens strips to itself and
      splits into its two tokens. */
  lemma DataLineTokens(offset: string, rwnd: string)
    requires offset != [] && rwnd != []
    requires !IsSpace(offset[0]) && !IsSpace(rwnd[|rwnd| - 1])
    requires ',' !in offset && ',' !in rwnd
    ensures Strip(offset + [','] + rwnd) == offset + [','] + rwnd
    ensures Split(offset + [','] + rwnd, ',') == [offset, rwnd]
  {
    var line := offset + [','] + rwnd;
    assert line[0] == offset[0] && line[|line| - 1] == rwnd[|rwnd| - 1];
    StripUntrimmed(line);
    SplitJoin([offset, rwnd], ',');
    assert Join([offset, rwnd], ',') == line;
  }

  /** Such a line, when its tokens convert, parses to one entry. */
  lemma ParseDataLine(offset: string, rwnd: string, now: real,
                      parseFloat: string -> Option<real>, parseInt: string -> Option<int>)
    requires offset != [] && rwnd != [] && offset[0] != '#'
    requires !IsSpace(offset[0]) && !IsSpace(rwnd[|rwnd| - 1])
    requires ',' !in offset && ',' !in rwnd
    requires parseFloat(offset).Some? && parseInt(rwnd).Some?
    ensures ParseLine(offset + [','] + rwnd, now, parseFloat, parseInt)
            == Ok(Some(Entry(now + parseFloat(offset).value, parseInt(rwnd).value)))
  {
    var line := offset + [','] + rwnd;
    DataLineTokens(offset, rwnd);
    assert Strip(line)[0] == offset[0];
    var toks := Split(Strip(line), ',');
    assert toks[0] == offset && toks[1] == rwnd;
  }

  /** The data line `0,1000` read at `t0`. */
  lemma ScenarioFirstLine(t0: real, parseFloat: string -> Option<real>,
                          parseInt: string -> Option<int>)
    requires parseFloat("0") == Some(0.0) && parseInt("1000") == Some(1000)
    ensures ParseLine("0,1000", t0, parseFloat, parseInt) == Ok(Some(Entry(t0, 1000)))
  {
    assert "0,1000" == "0" + [','] + "1000";
    ParseDataLine("0", "1000", t0, parseFloat, parseInt);
  }

  /** The data line `5,2000` read at `t0`. */
  lemma ScenarioSecondLine(t0: real, parseFloat: string -> Option<real>,
                           parseInt: string -> Option<int>)
    requires parseFloat("5") == Some(5.0) && parseInt("2000") == Some(2000)
    ensures ParseLine("5,2000", t0, parseFloat, parseInt) == Ok(Some(Entry(t0 + 5.0, 2000)))
  {
    assert "5,2000" == "5" + [','] + "2000";
    ParseDataLine("5", "2000", t0, parseFloat, parseInt);
  }

  /** A file of two data lines yields their two entries, in order. */
  lemma TwoDataLines(l1: string, l2: string, e1: Entry, e2: Entry, now: real,
                     parseFloat: string -> Option<real>, parseInt: string -> Option<int>)
    requires ParseLine(l1, now, parseFloat, parseInt) == Ok(Some(e1))
    requires ParseLine(l2, now, parseFloat, parseInt) == Ok(Some(e2))
    ensures ParsedEntries([l1, l2], now, parseFloat, parseInt) == Ok([e1, e2])
  {
    var lines := [l1, l2];
    assert [l1][..0] == [] && [l1][0] == l1;
    assert ParsedEntries([l1][..0], now, parseFloat, parseInt) == Ok([]);
    assert [] + [e1] == [e1];
    assert ParsedEntries([l1], now, parseFloat, parseInt) == Ok([e1]);
    assert lines[..1] == [l1] && lines[1] == l2;
    assert [e1] + [e2] == [e1, e2];
  }

  /** Two data lines already in start order come back from the parser as they
      were read. */
  lemma TwoOrderedLines(l1: string, l2: string, e1: Entry, e2: Entry, now: real,
                        parseFloat: string -> Option<real>, parseInt: string -> Option<int>)
    requires ParseLine(l1, now, parseFloat, parseInt) == Ok(Some(e1))
    requires ParseLine(l2, now, parseFloat, parseInt) == Ok(Some(e2))
    requires e1.start <= e2.start
    ensures SortedSchedule(ParsedEntries([l1, l2], now, parseFloat, parseInt)) == Ok([e1, e2])
  {
    TwoDataLines(l1, l2, e1, e2, now, parseFloat, parseInt);
    assert SortedBy([e1, e2], StartKey);
    SortBySortedIsIdentity([e1, e2], StartKey);
  }

  /** The two-line schedule `0,1000` / `5,2000`, parsed at time `t0`, gives its two
      entries in file order. */
  lemma ScheduleScenarioParse(t0: real, parseFloat: string -> Option<real>,
                              parseInt: string -> Option<int>)
    requires parseFloat("0") == Some(0.0) && parseFloat("5") == Some(5.0)
    requires parseInt("1000") == Some(1000) && parseInt("2000") == Some(2000)
    ensures SortedSchedule(ParsedEntries(["0,1000", "5,2000"], t0, parseFloat, parseInt))
            == Ok([Entry(t0, 1000), Entry(t0 + 5.0, 2000)])
  {
    ScenarioFirstLine(t0, parseFloat, parseInt);
    ScenarioSecondLine(t0, parseFloat, parseInt);
    TwoOrderedLines("0,1000", "5,2000", Entry(t0, 1000), Entry(t0 + 5.0, 2000), t0, parseFloat, parseInt);
  }

  /** Looking that schedule up: two seconds in it already answers 2000 (the next
      entry), and so it does after the second entry has started; only at `t0`
      itself does it answer 1000. */
  lemma ScheduleScenarioLookup(t0: real)
    ensures GetStaticRwnd([Entry(t0, 1000), Entry(t0 + 5.0, 2000)], t0) == Ok(1000)
    ensures GetStaticRwnd([Entry(t0, 1000), Entry(t0 + 5.0, 2000)], t0 + 2.0) == Ok(2000)
    ensures GetStaticRwnd([Entry(t0, 1000), Entry(t0 + 5.0, 2000)], t0 + 6.0) == Ok(2000)
  {
    var es := [Entry(t0, 1000), Entry(t0 + 5.0, 2000)];
    GetStaticRwndIsUpcoming(es, t0, 0);
    GetStaticRwndIsUpcoming(es, t0 + 2.0, 1);
    GetStaticRwndIsUpcoming(es, t0 + 6.0, 1);
  }
}

=== FILE: scheduler.dfy ===
/** ratemon/runtime/libratemon_interp.cpp: an `LD_PRELOAD` library that schedules
    the receive windows of a process's TCP connections. `accept` registers each new
    connection and places it in the active queue or, once `max_active_flows`
    connections are active, in the paused queue with a zero window in the pinned
    `flow_to_rwnd` map; `close` forgets a connection; and every epoch a scheduling
    thread activates up to `max_active_flows` paused connections and pauses all
    previously active ones.

    The system calls (`dlsym`, the real `accept` and `close`, `setsockopt`,
    `getsockopt`, `getsockname`, `getpeername`, loading the BPF skeleton) are
    inputs; the two environment variables are the constants of a `Scheduler`. */
module Scheduler {
  import opened Base

  /** `struct rm_flow`, in host byte order. */
  datatype RmFlow = RmFlow(localAddr: int, remoteAddr: int, localPort: int, remotePort: int)

  /** The address family `AF_INET`. */
  const AfInet: int := 2

  /** An address and a port, as `getsockname` or `getpeername` report them. */
  datatype Endpoint = Endpoint(addr: int, port: int)

  /** What the calls made by one `accept` return. `family` is `None` when the
      caller passed no address; `retrievedCca` is `None` when `getsockopt` fails;
      `localEnd` and `remoteEnd` are `None` when `getsockname` or `getpeername`
      fails. */
  datatype AcceptInputs = AcceptInputs(
    realAcceptFound: bool,
    newFd: int,
    family: Option<int>,
    skeletonLoads: bool,
    setCongestionOk: bool,
    retrievedCca: Option<string>,
    localEnd: Option<Endpoint>,
    remoteEnd: Option<Endpoint>)

  /** The library's global state: the two FIFO queues, `fd_to_flow`, the pinned
      `flow_to_rwnd` map (0 means paused), and the `setup` and `skipped_first`
      flags. */
  datatype SchedState = SchedState(
    active: seq<int>,
    paused: seq<int>,
    fdToFlow: map<int, RmFlow>,
    flowToRwnd: map<RmFlow, int>,
    setup: bool,
    skippedFirst: bool)

  // ---------------------------------------------------------------------------
  // accept and close

  /** `accept` (lines 158-279). `bpfCubic` is the congestion control the library
      installs (`RM_BPF_CUBIC`). */
  function AcceptSpec(s: SchedState, maxActive: nat, epochUs: nat, bpfCubic: string,
                      io: AcceptInputs): (r: (SchedState, int))
    ensures |s.active| <= maxActive ==> |r.0.active| <= maxActive
    ensures r.1 == -1 || r.1 == io.newFd
  {
    if maxActive == 0 || epochUs == 0 then (s, -1)
    else if !io.realAcceptFound || io.newFd == -1 then (s, -1)
    else if io.family.Some? && io.family.value != AfInet then (s, io.newFd)
    else if !s.setup && !io.skeletonLoads then (s, io.newFd)
    else
      var s1 := s.(setup := true);
      if |s1.fdToFlow| == 0 && !s1.skippedFirst then (s1.(skippedFirst := true), io.newFd)
      else if !io.setCongestionOk || io.retrievedCca != Some(bpfCubic) then (s1, io.newFd)
      else if io.localEnd.None? || io.remoteEnd.None? then (s1, -1)
      else
        var flow := RmFlow(io.localEnd.value.addr, io.remoteEnd.value.addr,
                           io.localEnd.value.port, io.remoteEnd.value.port);
        var s2 := s1.(fdToFlow := if io.newFd in s1.fdToFlow then s1.fdToFlow
                                  else s1.fdToFlow[io.newFd := flow]);
        if |s2.active| < maxActive then (s2.(active := s2.active + [io.newFd]), io.newFd)
        else (s2.(paused := s2.paused + [io.newFd], flowToRwnd := s2.flowToRwnd[flow := 0]), io.newFd)
  }

  /** Whether `accept` gets as far as tracking the new connection. */
  predicate Tracks(s: SchedState, maxActive: nat, epochUs: nat, bpfCubic: string, io: AcceptInputs) {
    maxActive > 0 && epochUs > 0 && io.realAcceptFound && io.newFd != -1
    && (io.family.None? || io.family.value == AfInet)
    && (s.setup || io.skeletonLoads)
    && (|s.fdToFlow| > 0 || s.skippedFirst)
    && io.setCongestionOk && io.retrievedCca == Some(bpfCubic)
    && io.localEnd.Some? && io.remoteEnd.Some?
  }

  /** When either environment variable reads as 0, `accept` fails and tracks
      nothing; a connection that is not IPv4 is returned untracked. */
  lemma AcceptRefuses(s: SchedState, maxActive: nat, epochUs: nat, bpfCubic: string, io: AcceptInputs)
    ensures maxActive == 0 || epochUs == 0 ==> AcceptSpec(s, maxActive, epochUs, bpfCubic, io) == (s, -1)
    ensures maxActive > 0 && epochUs > 0 && io.realAcceptFound && io.newFd != -1
            && io.family.Some? && io.family.value != AfInet
            ==> AcceptSpec(s, maxActive, epochUs, bpfCubic, io) == (s, io.newFd)
  {
  }

  /** The first connection accepted while nothing is tracked is returned
      untracked, once: afterwards `skipped_first` is set. */
  lemma AcceptSkipsFirst(s: SchedState, maxActive: nat, epochUs: nat, bpfCubic: string, io: AcceptInputs)
    requires maxActive > 0 && epochUs > 0 && io.realAcceptFound && io.newFd != -1
    requires io.family.None? || io.family.value == AfInet
    requires s.setup || io.skeletonLoads
    requires s.fdToFlow == map[] && !s.skippedFirst
    ensures var r := AcceptSpec(s, maxActive, epochUs, bpfCubic, io);
            r.1 == io.newFd && r.0.skippedFirst && r.0.setup
            && r.0.active == s.active && r.0.paused == s.paused && r.0.fdToFlow == s.fdToFlow
            && r.0.flowToRwnd == s.flowToRwnd
  {
  }

  /** A tracked connection joins the back of the active queue while fewer than
      `max_active_flows` are active, leaving the window map alone; otherwise it
      joins the back of the paused queue and its flow's window becomes 0. Only
      an unknown descriptor is added to `fd_to_flow`. */
  lemma AcceptPlaces(s: SchedState, maxActive: nat, epochUs: nat, bpfCubic: string, io: AcceptInputs)
    requires Tracks(s, maxActive, epochUs, bpfCubic, io)
    ensures var r := AcceptSpec(s, maxActive, epochUs, bpfCubic, io);
            var flow := RmFlow(io.localEnd.value.addr, io.remoteEnd.value.addr,
                               io.localEnd.value.port, io.remoteEnd.value.port);
            r.1 == io.newFd && r.0.setup
            && io.newFd in r.0.fdToFlow
            && (io.newFd in s.fdToFlow ==> r.0.fdToFlow == s.fdToFlow)
            && (io.newFd !in s.fdToFlow ==> r.0.fdToFlow == s.fdToFlow[io.newFd := flow])
            && (if |s.active| < maxActive
                then r.0.active == s.active + [io.newFd] && r.0.paused == s.paused
                     && r.0.flowToRwnd == s.flowToRwnd
                else r.0.active == s.active && r.0.paused == s.paused + [io.newFd]
                     && r.0.flowToRwnd == s.flowToRwnd[flow := 0])
  {
  }

  /** The queues gain the new descriptor exactly when `accept` tracks it, and
      nothing otherwise; an untracked connection leaves both maps alone. */
  lemma AcceptQueuesOnlyNewFd(s: SchedState, maxActive: nat, epochUs: nat, bpfCubic: string,
                              io: AcceptInputs)
    ensures var r := AcceptSpec(s, maxActive, epochUs, bpfCubic, io).0;
            multiset(r.active + r.paused)
              == multiset(s.active + s.paused)
                 + (if Tracks(s, maxActive, epochUs, bpfCubic, io) then multiset{io.newFd} else multiset{})
    ensures var r := AcceptSpec(s, maxActive, epochUs, bpfCubic, io).0;
            !Tracks(s, maxActive, epochUs, bpfCubic, io) ==>
              r.fdToFlow == s.fdToFlow && r.flowToRwnd == s.flowToRwnd
  {
  }

  /** `close` (lines 283-307): when the real `close` succeeds, the descriptor's
      flow loses its window entry and the descriptor is forgotten; the queues are
      left as they are. */
  function CloseSpec(s: SchedState, fd: int, realCloseFound: bool, ret: int): (r: (SchedState, int))
    ensures r.0.active == s.active && r.0.paused == s.paused
    ensures r.1 == (if realCloseFound then ret else -1)
    ensures realCloseFound && ret != -1 ==>
              fd !in r.0.fdToFlow && (fd in s.fdToFlow ==> s.fdToFlow[fd] !in r.0.flowToRwnd)
    ensures forall k :: k in r.0.fdToFlow ==> k in s.fdToFlow && r.0.fdToFlow[k] == s.fdToFlow[k]
    ensures forall k :: k in s.fdToFlow && k != fd ==> k in r.0.fdToFlow
    ensures forall f :: f in r.0.flowToRwnd ==> f in s.flowToRwnd && r.0.flowToRwnd[f] == s.flowToRwnd[f]
    ensures forall f :: f in s.flowToRwnd && (fd !in s.fdToFlow || f != s.fdToFlow[fd]) ==> f in r.0.flowToRwnd
    ensures r.0.setup == s.setup && r.0.skippedFirst == s.skippedFirst
    ensures !realCloseFound || ret == -1 ==> r.0 == s
  {
    if !realCloseFound then (s, -1)
    else if ret == -1 then (s, ret)
    else
      var rwnd := if fd in s.fdToFlow then s.flowToRwnd - {s.fdToFlow[fd]} else s.flowToRwnd;
      (s.(flowToRwnd := rwnd, fdToFlow := s.fdToFlow - {fd}), ret)
  }

  // ---------------------------------------------------------------------------
  // One scheduling epoch

  /** How one epoch ends: the thread never started, nothing to do, a completed
      round, or the activation loop spinning on a descriptor that is no longer
      known. */
  datatype StepOutcome = Stopped | Skipped | Scheduled | Stuck

  /** The number of leading descriptors of `fds` that `fd_to_flow` knows. */
  function KnownPrefix(fds: seq<int>, fdToFlow: map<int, RmFlow>): (r: nat)
    ensures r <= |fds|
    ensures forall i :: 0 <= i < r ==> fds[i] in fdToFlow
    ensures r < |fds| ==> fds[r] !in fdToFlow
  {
    if fds == [] || fds[0] !in fdToFlow then 0 else 1 + KnownPrefix(fds[1..], fdToFlow)
  }

  /** The window map after deleting the entries of the flows of `fds`, in order
      (unknown descriptors are skipped). */
  function Deleted(rwnd: map<RmFlow, int>, fds: seq<int>, fdToFlow: map<int, RmFlow>): map<RmFlow, int> {
    if fds == [] then rwnd
    else
      var before := Deleted(rwnd, fds[..|fds| - 1], fdToFlow);
      var fd := fds[|fds| - 1];
      if fd in fdToFlow then before - {fdToFlow[fd]} else before
  }

  /** The window map after setting the windows of the flows of `fds` to 0, in
      order (unknown descriptors are skipped). */
  function Zeroed(rwnd: map<RmFlow, int>, fds: seq<int>, fdToFlow: map<int, RmFlow>): map<RmFlow, int> {
    if fds == [] then rwnd
    else
      var before := Zeroed(rwnd, fds[..|fds| - 1], fdToFlow);
      var fd := fds[|fds| - 1];
      if fd in fdToFlow then before[fdToFlow[fd] := 0] else before
  }

  /** Whether some descriptor of `fds` is known and belongs to `flow`. */
  predicate Owns(fds: seq<int>, fdToFlow: map<int, RmFlow>, flow: RmFlow) {
    exists i :: 0 <= i < |fds| && fds[i] in fdToFlow && fdToFlow[fds[i]] == flow
  }

  /** A flow is owned by a sequence of descriptors when it is owned by all but
      the last, or by the last. */
  lemma OwnsLast(fds: seq<int>, fdToFlow: map<int, RmFlow>, flow: RmFlow)
    requires fds != []
    ensures var last := fds[|fds| - 1];
            Owns(fds, fdToFlow, flow) <==>
              Owns(fds[..|fds| - 1], fdToFlow, flow) || (last in fdToFlow && fdToFlow[last] == flow)
  {
    var init := fds[..|fds| - 1];
    assert forall i :: 0 <= i < |init| ==> init[i] == fds[i];
    if Owns(fds, fdToFlow, flow) && !Owns(init, fdToFlow, flow) {
      var i :| 0 <= i < |fds| && fds[i] in fdToFlow && fdToFlow[fds[i]] == flow;
      assert i == |fds| - 1;
    }
  }

  /** Deleting removes exactly the flows of known descriptors and keeps the other
      entries. */
  lemma {:induction false} DeletedExactly(rwnd: map<RmFlow, int>, fds: seq<int>,
                                          fdToFlow: map<int, RmFlow>, flow: RmFlow)
    ensures flow in Deleted(rwnd, fds, fdToFlow) <==> flow in rwnd && !Owns(fds, fdToFlow, flow)
    ensures flow in Deleted(rwnd, fds, fdToFlow) ==> Deleted(rwnd, fds, fdToFlow)[flow] == rwnd[flow]
  {
    if fds != [] {
      var init := fds[..|fds| - 1];
      DeletedExactly(rwnd, init, fdToFlow, flow);
      OwnsLast(fds, fdToFlow, flow);
    }
  }

  /** Zeroing sets exactly the flows of known descriptors to 0 and keeps the
      other entries. */
  lemma {:induction false} ZeroedExactly(rwnd: map<RmFlow, int>, fds: seq<int>,
                                         fdToFlow: map<int, RmFlow>, flow: RmFlow)
    ensures Owns(fds, fdToFlow, flow) ==>
              flow in Zeroed(rwnd, fds, fdToFlow) && Zeroed(rwnd, fds, fdToFlow)[flow] == 0
    ensures !Owns(fds, fdToFlow, flow) ==>
              (flow in Zeroed(rwnd, fds, fdToFlow) <==> flow in rwnd)
              && (flow in rwnd ==> Zeroed(rwnd, fds, fdToFlow)[flow] == rwnd[flow])
  {
    if fds != [] {
      var init := fds[..|fds| - 1];
      ZeroedExactly(rwnd, init, fdToFlow, flow);
      OwnsLast(fds, fdToFlow, flow);
    }
  }

  /** How many paused descriptors an epoch activates: `max_active_flows`, or all
      of them when fewer are paused. */
  function ToActivate(paused: seq<int>, maxActive: nat): nat {
    if |paused| < maxActive then |paused| else maxActive
  }

  /** One iteration of the `while (true)` loop of `thread_func` (lines 82-151). The
      thread returns at once when either environment variable reads as 0; an
      epoch does nothing before setup, or when fewer than `max_active_flows` flows
      exist and all are active. Otherwise the first paused descriptors are
      activated, and their flows' windows deleted, then every previously active
      descriptor is moved to the back of the paused queue with its flow's window
      set to 0. If a
      descriptor the activation loop reaches is no longer known, the loop spins
      on it without end; the state is then the one the loop holds. */
  function StepSpec(s: SchedState, maxActive: nat, epochUs: nat): (r: (SchedState, StepOutcome))
    ensures r.1 == Scheduled ==> multiset(r.0.active + r.0.paused) == multiset(s.active + s.paused)
    ensures r.1 == Scheduled ==> |r.0.active| <= maxActive
    ensures r.1 == Scheduled ==> r.0.setup == s.setup && r.0.skippedFirst == s.skippedFirst
    ensures r.1 != Stuck ==> r.0.fdToFlow == s.fdToFlow
    ensures r.1 == Stopped <==> maxActive == 0 || epochUs == 0
    ensures r.1 == Skipped <==>
              maxActive > 0 && epochUs > 0 && (!s.setup || (|s.active| < maxActive && |s.paused| == 0))
    ensures r.1 == Stopped || r.1 == Skipped ==> r.0 == s
  {
    if maxActive == 0 || epochUs == 0 then (s, Stopped)
    else if !s.setup then (s, Skipped)
    else if |s.active| < maxActive && |s.paused| == 0 then (s, Skipped)
    else
      var n := ToActivate(s.paused, maxActive);
      var k := KnownPrefix(s.paused[..n], s.fdToFlow);
      if k < n then (s.(paused := s.paused[k..]), Stuck)
      else
        var activated := s.paused[..n];
        assert s.paused == activated + s.paused[n..];
        var rwnd := Zeroed(Deleted(s.flowToRwnd, activated, s.fdToFlow), s.active, s.fdToFlow);
        (s.(active := activated, paused := s.paused[n..] + s.active, flowToRwnd := rwnd), Scheduled)
  }

  /** After a completed epoch the active queue is the first paused descriptors in
      FIFO order, and the paused queue is the rest followed by the previously
      active ones; an epoch completes exactly when every descriptor it activates
      is known. */
  lemma StepRotates(s: SchedState, maxActive: nat, epochUs: nat)
    requires maxActive > 0 && epochUs > 0 && s.setup
    requires |s.active| >= maxActive || |s.paused| > 0
    ensures var n := ToActivate(s.paused, maxActive);
            var r := StepSpec(s, maxActive, epochUs);
            (r.1 == Scheduled <==> forall i :: 0 <= i < n ==> s.paused[i] in s.fdToFlow)
            && (r.1 == Scheduled ==> r.0.active == s.paused[..n] && r.0.paused == s.paused[n..] + s.active)
            && (r.1 != Scheduled ==> r.1 == Stuck)
  {
    var n := ToActivate(s.paused, maxActive);
    var k := KnownPrefix(s.paused[..n], s.fdToFlow);
    if k < n {
      assert s.paused[..n][k] == s.paused[k];
    } else {
      forall i | 0 <= i < n ensures s.paused[i] in s.fdToFlow {
        assert s.paused[..n][i] == s.paused[i];
      }
    }
  }

  /** In a completed epoch the window of each activated descriptor's flow is
      deleted, the window of each previously active descriptor's flow is set to
      0 (the later write wins for a flow that is both), and no other entry
      changes. */
  lemma StepWindows(s: SchedState, maxActive: nat, epochUs: nat, flow: RmFlow)
    requires StepSpec(s, maxActive, epochUs).1 == Scheduled
    ensures var rwnd := StepSpec(s, maxActive, epochUs).0.flowToRwnd;
            var activated := s.paused[..ToActivate(s.paused, maxActive)];
            if Owns(s.active, s.fdToFlow, flow) then flow in rwnd && rwnd[flow] == 0
            else if Owns(activated, s.fdToFlow, flow) then flow !in rwnd
            else (flow in rwnd <==> flow in s.flowToRwnd)
                 && (flow in rwnd ==> rwnd[flow] == s.flowToRwnd[flow])
  {
    var activated := s.paused[..ToActivate(s.paused, maxActive)];
    DeletedExactly(s.flowToRwnd, activated, s.fdToFlow, flow);
    ZeroedExactly(Deleted(s.flowToRwnd, activated, s.fdToFlow), s.active, s.fdToFlow, flow);
  }

  /** A descriptor closed while it heads the paused queue stalls the next epoch
      for good: `close` leaves it in the queue but forgets it. */
  lemma ClosedHeadStalls(s: SchedState, maxActive: nat, epochUs: nat, ret: int)
    requires maxActive > 0 && epochUs > 0 && s.setup && s.paused != [] && ret != -1
    ensures var closed := CloseSpec(s, s.paused[0], true, ret).0;
            StepSpec(closed, maxActive, epochUs).1 == Stuck
  {
    var closed := CloseSpec(s, s.paused[0], true, ret).0;
    var n := ToActivate(closed.paused, maxActive);
    assert closed.paused[..n][0] == s.paused[0];
  }

  /** The library's globals, with the two environment variables as constants. */
  class Scheduler {
    const maxActiveFlows: nat
    const epochUs: nat
    const bpfCubic: string
    var active: seq<int>
    var paused: seq<int>
    var fdToFlow: map<int, RmFlow>
    var flowToRwnd: map<RmFlow, int>
    var setup: bool
    var skippedFirst: bool

    function State(): SchedState
      reads this
    {
      SchedState(active, paused, fdToFlow, flowToRwnd, setup, skippedFirst)
    }

    /** At most `max_active_flows` connections are active. */
    ghost predicate Valid()
      reads this
    {
      |active| <= maxActiveFlows
    }

    /** Process start: empty queues and map, over the pinned window map. */
    constructor (maxActive: nat, epoch: nat, cubic: string, pinned: map<RmFlow, int>)
      ensures maxActiveFlows == maxActive && epochUs == epoch && bpfCubic == cubic
      ensures State() == SchedState([], [], map[], pinned, false, false)
      ensures Valid()
    {
      maxActiveFlows := maxActive;
      epochUs := epoch;
      bpfCubic := cubic;
      active := [];
      paused := [];
      fdToFlow := map[];
      flowToRwnd := pinned;
      setup := false;
      skippedFirst := false;
    }

    /** `accept`. */
    method Accept(io: AcceptInputs) returns (ret: int)
      modifies this
      ensures (State(), ret) == AcceptSpec(old(State()), maxActiveFlows, epochUs, bpfCubic, io)
      ensures old(Valid()) ==> Valid()
    {
      if maxActiveFlows == 0 || epochUs == 0 {
        return -1;
      }
      if !io.realAcceptFound || io.newFd == -1 {
        return -1;
      }
      if io.family.Some? && io.family.value != AfInet {
        return io.newFd;
      }
      if !setup {
        if !io.skeletonLoads {
          return io.newFd;
        }
        setup := true;
      }
      if |fdToFlow| == 0 && !skippedFirst {
        skippedFirst := true;
        return io.newFd;
      }
      if !io.setCongestionOk || io.retrievedCca != Some(bpfCubic) {
        return io.newFd;
      }
      if io.localEnd.None? || io.remoteEnd.None? {
        return -1;
      }
      var flow := RmFlow(io.localEnd.value.addr, io.remoteEnd.value.addr,
                         io.localEnd.value.port, io.remoteEnd.value.port);
      if io.newFd !in fdToFlow {
        fdToFlow := fdToFlow[io.newFd := flow];
      }
      if |active| < maxActiveFlows {
        active := active + [io.newFd];
      } else {
        paused := paused + [io.newFd];
        flowToRwnd := flowToRwnd[flow := 0];
      }
      return io.newFd;
    }

    /** `close`. */
    method Close(fd: int, realCloseFound: bool, realRet: int) returns (ret: int)
      modifies this
      ensures (State(), ret) == CloseSpec(old(State()), fd, realCloseFound, realRet)
      ensures old(Valid()) ==> Valid()
    {
      if !realCloseFound {
        return -1;
      }
      if realRet == -1 {
        return realRet;
      }
      if fd in fdToFlow {
        flowToRwnd := flowToRwnd - {fdToFlow[fd]};
      }
      fdToFlow := fdToFlow - {fd};
      return realRet;
    }

    /** One epoch of `thread_func`. */
    method Step() returns (outcome: StepOutcome)
      modifies this
      ensures (State(), outcome) == StepSpec(old(State()), maxActiveFlows, epochUs)
      ensures old(Valid()) && outcome != Stuck ==> Valid()
    {
      if maxActiveFlows == 0 || epochUs == 0 {
        return Stopped;
      }
      if !setup {
        return Skipped;
      }
      if |active| < maxActiveFlows && |paused| == 0 {
        return Skipped;
      }
      var newActive, stuck := TakeKnown();
      if stuck {
        return Stuck;
      }
      var numPrevActive := |active|;
      ActivateAll(newActive);
      PauseFirst(numPrevActive);
      return Scheduled;
    }

    /** The activation loop (lines 105-113): pop known descriptors from the front
        of the paused queue until `max_active_flows` are taken or the queue is
        empty; `stuck` when the front descriptor is unknown, where the source
        spins forever. */
    method TakeKnown() returns (newActive: seq<int>, stuck: bool)
      modifies this
      ensures var n := ToActivate(old(paused), maxActiveFlows);
              var k := KnownPrefix(old(paused)[..n], fdToFlow);
              (stuck <==> k < n)
              && (stuck ==> paused == old(paused)[k..])
              && (!stuck ==> newActive == old(paused)[..n] && paused == old(paused)[n..])
      ensures active == old(active) && fdToFlow == old(fdToFlow) && flowToRwnd == old(flowToRwnd)
      ensures setup == old(setup) && skippedFirst == old(skippedFirst)
    {
      ghost var start := paused;
      ghost var n := ToActivate(paused, maxActiveFlows);
      newActive := [];
      while |paused| > 0 && |newActive| < maxActiveFlows
        invariant newActive + paused == start
        invariant |newActive| <= n
        invariant forall i :: 0 <= i < |newActive| ==> start[i] in fdToFlow
        invariant active == old(active) && fdToFlow == old(fdToFlow) && flowToRwnd == old(flowToRwnd)
        invariant setup == old(setup) && skippedFirst == old(skippedFirst)
        decreases |paused|
      {
        var next := paused[0];
        if next !in fdToFlow {
          assert start[|newActive|] == next;
          StuckAt(start, n, |newActive|, fdToFlow);
          assert paused == start[|newActive|..];
          return newActive, true;
        }
        assert start[|newActive|] == next;
        paused := paused[1..];
        newActive := newActive + [next];
      }
      assert |newActive| == n;
      AllKnown(start, n, fdToFlow);
      assert newActive == start[..n];
      return newActive, false;
    }

    /** Lines 120-127: each activated descriptor joins the active queue and its
        flow's window entry is deleted. */
    method ActivateAll(newActive: seq<int>)
      modifies this
      ensures active == old(active) + newActive
      ensures flowToRwnd == Deleted(old(flowToRwnd), newActive, fdToFlow)
      ensures paused == old(paused) && fdToFlow == old(fdToFlow)
      ensures setup == old(setup) && skippedFirst == old(skippedFirst)
    {
      var i := 0;
      while i < |newActive|
        invariant 0 <= i <= |newActive|
        invariant active == old(active) + newActive[..i]
        invariant flowToRwnd == Deleted(old(flowToRwnd), newActive[..i], fdToFlow)
        invariant paused == old(paused) && fdToFlow == old(fdToFlow)
        invariant setup == old(setup) && skippedFirst == old(skippedFirst)
      {
        var fd := newActive[i];
        assert newActive[..i + 1][..i] == newActive[..i];
        active := active + [fd];
        if fd in fdToFlow {
          flowToRwnd := flowToRwnd - {fdToFlow[fd]};
        }
        i := i + 1;
      }
      assert newActive[..|newActive|] == newActive;
    }

    /** Lines 134-144: the first `count` active descriptors move to the back of the
        paused queue and their flows' windows are set to 0. */
    method PauseFirst(count: nat)
      requires count <= |active|
      modifies this
      ensures active == old(active)[count..]
      ensures paused == old(paused) + old(active)[..count]
      ensures flowToRwnd == Zeroed(old(flowToRwnd), old(active)[..count], fdToFlow)
      ensures fdToFlow == old(fdToFlow)
      ensures setup == old(setup) && skippedFirst == old(skippedFirst)
    {
      var j := 0;
      while j < count
        invariant 0 <= j <= count
        invariant active == old(active)[j..]
        invariant paused == old(paused) + old(active)[..j]
        invariant flowToRwnd == Zeroed(old(flowToRwnd), old(active)[..j], fdToFlow)
        invariant fdToFlow == old(fdToFlow)
        invariant setup == old(setup) && skippedFirst == old(skippedFirst)
      {
        var fd := active[0];
        assert old(active)[..j + 1][..j] == old(active)[..j];
        assert old(active)[..j + 1] == old(active)[..j] + [fd];
        active := active[1..];
        paused := paused + [fd];
        if fd in fdToFlow {
          flowToRwnd := flowToRwnd[fdToFlow[fd] := 0];
        }
        j := j + 1;
      }
    }
  }

  /** The activation loop meets an unknown descriptor at position `k` of the
      first `n` paused ones exactly when `k` is the length of the known prefix. */
  lemma StuckAt(paused: seq<int>, n: nat, k: nat, fdToFlow: map<int, RmFlow>)
    requires n <= |paused| && k < n
    requires forall i :: 0 <= i < k ==> paused[i] in fdToFlow
    requires paused[k] !in fdToFlow
    ensures KnownPrefix(paused[..n], fdToFlow) == k
  {
    KnownPrefixExact(paused[..n], k, fdToFlow);
  }

  /** When the first `n` paused descriptors are all known, the known prefix covers
      them. */
  lemma AllKnown(paused: seq<int>, n: nat, fdToFlow: map<int, RmFlow>)
    requires n <= |paused|
    requires forall i :: 0 <= i < n ==> paused[i] in fdToFlow
    ensures KnownPrefix(paused[..n], fdToFlow) == n
  {
    KnownPrefixExact(paused[..n], n, fdToFlow);
  }

  /** The known prefix is the position of the first unknown descriptor. */
  lemma {:induction false} KnownPrefixExact(fds: seq<int>, k: nat, fdToFlow: map<int, RmFlow>)
    requires k <= |fds|
    requires forall i :: 0 <= i < k ==> fds[i] in fdToFlow
    requires k < |fds| ==> fds[k] !in fdToFlow
    ensures KnownPrefix(fds, fdToFlow) == k
  {
    if k > 0 {
      KnownPrefixExact(fds[1..], k - 1, fdToFlow);
    }
  }
}

=== FILE: sorting.dfy ===
/** Python's `sorted(xs, key=k)`: a stable sort on a real-valued key, written as an
    insertion sort. Its contract is the one Python documents: the result is ordered
    by key, is a permutation of the input, and keeps elements with equal keys in
    their input order. */
module Sorting {

  ghost predicate SortedBy<T>(s: seq<T>, key: T -> real) {
    forall i, j :: 0 <= i < j < |s| ==> key(s[i]) <= key(s[j])
  }

  /** The elements of `s` whose key is `k`, in their order in `s`. */
  function WithKey<T>(s: seq<T>, key: T -> real, k: real): seq<T> {
    if s == [] then []
    else (if key(s[0]) == k then [s[0]] else []) + WithKey(s[1..], key, k)
  }

  /** Places `x` in front of the first element whose key is at least `x`'s. */
  function Insert<T>(x: T, s: seq<T>, key: T -> real): (r: seq<T>)
    ensures |r| == |s| + 1
    ensures multiset(r) == multiset(s) + multiset{x}
    ensures SortedBy(s, key) ==> SortedBy(r, key)
  {
    if s == [] || key(x) <= key(s[0]) then [x] + s
    else
      var t := Insert(x, s[1..], key);
      assert s == [s[0]] + s[1..];
      assert SortedBy(s, key) ==> SortedBy([s[0]] + t, key) by {
        if SortedBy(s, key) {
          ConsSorted(x, s, t, key);
        }
      }
      [s[0]] + t
  }

  /** Putting the smallest element of a sorted `s` in front of a sorted `t` made of
      `x` and the rest of `s` gives a sorted sequence. */
  lemma ConsSorted<T>(x: T, s: seq<T>, t: seq<T>, key: T -> real)
    requires s != [] && SortedBy(s, key) && SortedBy(t, key) && key(s[0]) < key(x)
    requires multiset(t) == multiset(s[1..]) + multiset{x}
    ensures SortedBy([s[0]] + t, key)
  {
    forall j | 0 <= j < |t| ensures key(s[0]) <= key(t[j]) {
      assert t[j] in multiset(t);
      if t[j] != x {
        assert t[j] in multiset(s[1..]);
        var m :| 0 <= m < |s[1..]| && s[1..][m] == t[j];
        assert s[m + 1] == t[j];
      }
    }
  }

  /** The sorted copy that `sorted(s, key=key)` returns. */
  function SortBy<T>(s: seq<T>, key: T -> real): (r: seq<T>)
    ensures multiset(r) == multiset(s)
    ensures SortedBy(r, key)
  {
    if s == [] then []
    else
      assert s == [s[0]] + s[1..];
      Insert(s[0], SortBy(s[1..], key), key)
  }

  /** Inserting `x` puts it in front of every element that shares its key. */
  lemma {:induction false} InsertKeepsKeyOrder<T>(x: T, s: seq<T>, key: T -> real, k: real)
    ensures WithKey(Insert(x, s, key), key, k)
            == (if key(x) == k then [x] else []) + WithKey(s, key, k)
  {
    if s == [] || key(x) <= key(s[0]) {
      assert ([x] + s)[1..] == s;
    } else {
      var t := Insert(x, s[1..], key);
      var r := [s[0]] + t;
      assert Insert(x, s, key) == r;
      InsertKeepsKeyOrder(x, s[1..], key, k);
      assert r[0] == s[0] && r[1..] == t;
      var head := if key(s[0]) == k then [s[0]] else [];
      assert WithKey(r, key, k) == head + WithKey(t, key, k);
      assert WithKey(s, key, k) == head + WithKey(s[1..], key, k);
      if key(s[0]) == k {
        assert key(x) != k;
      }
    }
  }

  /** Stability: among elements with one key, the sort keeps the input order. */
  lemma {:induction false} SortByIsStable<T>(s: seq<T>, key: T -> real, k: real)
    ensures WithKey(SortBy(s, key), key, k) == WithKey(s, key, k)
  {
    if s != [] {
      SortByIsStable(s[1..], key, k);
      InsertKeepsKeyOrder(s[0], SortBy(s[1..], key), key, k);
    }
  }

  /** Sorting an already ordered sequence changes nothing. */
  lemma {:induction false} SortBySortedIsIdentity<T>(s: seq<T>, key: T -> real)
    requires SortedBy(s, key)
    ensures SortBy(s, key) == s
  {
    if s != [] {
      assert SortedBy(s[1..], key);
      SortBySortedIsIdentity(s[1..], key);
    }
  }

  /** Sorting twice is sorting once. */
  lemma SortByIdempotent<T>(s: seq<T>, key: T -> real)
    ensures SortBy(SortBy(s, key), key) == SortBy(s, key)
  {
    SortBySortedIsIdentity(SortBy(s, key), key);
  }

  /** Two ordered sequences that agree, key by key, on which elements they hold and
      in what order, are equal. */
  lemma {:induction false} SortedDeterminedByKeys<T>(u: seq<T>, v: seq<T>, key: T -> real)
    requires SortedBy(u, key) && SortedBy(v, key)
    requires forall k :: WithKey(u, key, k) == WithKey(v, key, k)
    ensures u == v
    decreases |u|
  {
    if u == [] || v == [] {
      WithKeyHead(u, key);
      WithKeyHead(v, key);
    } else {
      var m, n := key(u[0]), key(v[0]);
      assert m == n by {
        MinKeyPresent(u, v, key);
        MinKeyPresent(v, u, key);
      }
      assert WithKey(u, key, m)[0] == u[0];
      assert WithKey(v, key, m)[0] == v[0];
      assert u[0] == v[0];
      forall k ensures WithKey(u[1..], key, k) == WithKey(v[1..], key, k) {
        var pre := if key(u[0]) == k then [u[0]] else [];
        assert WithKey(u, key, k) == pre + WithKey(u[1..], key, k);
        assert WithKey(v, key, k) == pre + WithKey(v[1..], key, k);
        assert WithKey(u[1..], key, k) == WithKey(u, key, k)[|pre|..];
        assert WithKey(v[1..], key, k) == WithKey(v, key, k)[|pre|..];
      }
      assert SortedBy(u[1..], key) && SortedBy(v[1..], key);
      SortedDeterminedByKeys(u[1..], v[1..], key);
      assert u == [u[0]] + u[1..] && v == [v[0]] + v[1..];
    }
  }

  lemma WithKeyHead<T>(s: seq<T>, key: T -> real)
    ensures s != [] ==> WithKey(s, key, key(s[0])) != []
  {
  }

  /** Every element of `s` appears among the elements with its own key. */
  lemma {:induction false} InWithKey<T>(s: seq<T>, key: T -> real, i: nat)
    requires i < |s|
    ensures s[i] in WithKey(s, key, key(s[i]))
  {
    if i > 0 {
      InWithKey(s[1..], key, i - 1);
    }
  }

  /** Anything in `WithKey(s, key, k)` is an element of `s` with key `k`. */
  lemma {:induction false} WithKeyMember<T>(s: seq<T>, key: T -> real, k: real, x: T)
    requires x in WithKey(s, key, k)
    ensures x in s && key(x) == k
  {
    if !(key(s[0]) == k && x == s[0]) {
      assert x in WithKey(s[1..], key, k);
      WithKeyMember(s[1..], key, k, x);
    }
  }

  /** In two non-empty ordered sequences with the same key-wise contents, the
      first key of `u` is no larger than the first key of `v`. */
  lemma MinKeyPresent<T>(u: seq<T>, v: seq<T>, key: T -> real)
    requires |u| > 0 && |v| > 0
    requires SortedBy(u, key)
    requires forall k :: WithKey(u, key, k) == WithKey(v, key, k)
    ensures key(u[0]) <= key(v[0])
  {
    InWithKey(v, key, 0);
    assert v[0] in WithKey(u, key, key(v[0]));
    WithKeyMember(u, key, key(v[0]), v[0]);
  }

  /** The sort depends only on the key-wise order of its input: a reordering that
      keeps equal-key elements in the same relative order sorts to the same result,
      and an already ordered input is its own sorted form. */
  lemma SortByDeterminedByKeys<T>(s: seq<T>, t: seq<T>, key: T -> real)
    requires forall k :: WithKey(s, key, k) == WithKey(t, key, k)
    ensures SortBy(s, key) == SortBy(t, key)
  {
    forall k ensures WithKey(SortBy(s, key), key, k) == WithKey(SortBy(t, key), key, k) {
      SortByIsStable(s, key, k);
      SortByIsStable(t, key, k);
    }
    SortedDeterminedByKeys(SortBy(s, key), SortBy(t, key), key);
  }
}

=== FILE: text.dfy ===
/** The string operations the runtime relies on: `str.split` on one separator
    character, its inverse join, `str.strip`, and decimal rendering and parsing of
    natural numbers (f-string `{n}` and the octets of a dotted quad). */
module Text {

  /** Position of the first occurrence of `c` in `s`. */
  function IndexOf(s: string, c: char): (i: nat)
    requires c in s
    ensures i < |s| && s[i] == c && c !in s[..i]
  {
    if s[0] == c then 0
    else
      assert c in s[1..] by {
        var k :| 0 <= k < |s| && s[k] == c;
        assert s[1..][k - 1] == c;
      }
      var j := IndexOf(s[1..], c);
      assert s[..j + 1] == [s[0]] + s[1..][..j];
      j + 1
  }

  /** `sep.join(parts)` for a one-character separator. */
  function Join(parts: seq<string>, sep: char): string
    requires |parts| > 0
  {
    if |parts| == 1 then parts[0] else parts[0] + [sep] + Join(parts[1..], sep)
  }

  /** `s.split(sep)` for a one-character separator: never empty, and the pieces
      contain no separator and join back to `s`. */
  function Split(s: string, sep: char): (parts: seq<string>)
    ensures |parts| > 0
    ensures forall i :: 0 <= i < |parts| ==> sep !in parts[i]
    ensures Join(parts, sep) == s
    decreases |s|
  {
    if sep !in s then [s]
    else
      var i := IndexOf(s, sep);
      var rest := Split(s[i + 1..], sep);
      var parts := [s[..i]] + rest;
      assert parts[1..] == rest;
      assert s == s[..i] + [sep] + s[i + 1..];
      parts
  }

  /** The first separator in `p + [sep] + t` is the one after `p` when `p` has none. */
  lemma {:induction false} IndexOfAfterPrefix(p: string, sep: char, t: string)
    requires sep !in p
    ensures sep in p + [sep] + t
    ensures IndexOf(p + [sep] + t, sep) == |p|
  {
    var s := p + [sep] + t;
    assert s[|p|] == sep;
    if p != [] {
      assert s[1..] == p[1..] + [sep] + t;
      IndexOfAfterPrefix(p[1..], sep, t);
    }
  }

  /** Splitting a join of separator-free pieces gives the pieces back. */
  lemma {:induction false} SplitJoin(parts: seq<string>, sep: char)
    requires |parts| > 0
    requires forall i :: 0 <= i < |parts| ==> sep !in parts[i]
    ensures Split(Join(parts, sep), sep) == parts
  {
    if |parts| > 1 {
      var s := Join(parts, sep);
      var tail := Join(parts[1..], sep);
      assert s == parts[0] + [sep] + tail;
      IndexOfAfterPrefix(parts[0], sep, tail);
      var i := IndexOf(s, sep);
      assert s[..i] == parts[0];
      assert s[i + 1..] == tail;
      SplitJoin(parts[1..], sep);
    }
  }

  predicate IsDigit(c: char) {
    '0' <= c <= '9'
  }

  predicate AllDigits(s: string) {
    forall i :: 0 <= i < |s| ==> IsDigit(s[i])
  }

  /** The decimal form Python prints for a natural number: digits only, and no
      leading zero unless the number is zero itself. */
  predicate IsCanonicalDec(s: string) {
    |s| > 0 && AllDigits(s) && (|s| == 1 || s[0] != '0')
  }

  function DigitChar(d: nat): (c: char)
    requires d < 10
    ensures IsDigit(c) && (c as int) - ('0' as int) == d
  {
    ('0' as int + d) as char
  }

  /** The value of a string of decimal digits (the most significant digit first). */
  function DecValue(s: string): nat
    requires AllDigits(s)
  {
    if s == [] then 0
    else DecValue(s[..|s| - 1]) * 10 + ((s[|s| - 1] as int) - ('0' as int))
  }

  /** Decimal rendering of a natural number, as `str(n)` gives it. */
  function NatToDec(n: nat): (s: string)
    ensures IsCanonicalDec(s)
    ensures DecValue(s) == n
  {
    if n < 10 then [DigitChar(n)]
    else
      var prefix := NatToDec(n / 10);
      var s := prefix + [DigitChar(n % 10)];
      assert s[..|s| - 1] == prefix;
      s
  }

  /** A canonical decimal string with a non-zero leading digit denotes at least 1. */
  lemma {:induction false} LeadingDigitPositive(s: string)
    requires |s| > 0 && AllDigits(s) && s[0] != '0'
    ensures DecValue(s) >= 1
  {
    if |s| > 1 {
      LeadingDigitPositive(s[..|s| - 1]);
    }
  }

  /** Rendering the value of a canonical decimal string reproduces the string. */
  lemma {:induction false} DecRoundTrip(s: string)
    requires IsCanonicalDec(s)
    ensures NatToDec(DecValue(s)) == s
  {
    if |s| > 1 {
      var prefix := s[..|s| - 1];
      assert prefix[0] == s[0];
      LeadingDigitPositive(prefix);
      DecRoundTrip(prefix);
      var n := DecValue(s);
      assert n / 10 == DecValue(prefix);
      assert n % 10 == (s[|s| - 1] as int) - ('0' as int);
      assert s == prefix + [s[|s| - 1]];
    }
  }

  /** Rendering is injective: distinct numbers print differently. */
  lemma NatToDecInjective(m: nat, n: nat)
    requires NatToDec(m) == NatToDec(n)
    ensures m == n
  {
  }

  /** The characters `str.isspace` accepts in the ASCII range. */
  predicate IsSpace(c: char) {
    c == ' ' || (9 <= c as int <= 13) || (28 <= c as int <= 31)
  }

  /** How many white-space characters `s` starts with. */
  function LeadingSpaces(s: string): (n: nat)
    ensures n <= |s|
    ensures forall k :: 0 <= k < n ==> IsSpace(s[k])
    ensures n == |s| || !IsSpace(s[n])
  {
    if s == [] || !IsSpace(s[0]) then 0
    else
      var n := LeadingSpaces(s[1..]);
      assert forall k :: 1 <= k < n + 1 ==> s[k] == s[1..][k - 1];
      n + 1
  }

  /** How many white-space characters `s` ends with. */
  function TrailingSpaces(s: string): (n: nat)
    ensures n <= |s|
    ensures forall k :: |s| - n <= k < |s| ==> IsSpace(s[k])
    ensures n == |s| || !IsSpace(s[|s| - n - 1])
  {
    if s == [] || !IsSpace(s[|s| - 1]) then 0
    else TrailingSpaces(s[..|s| - 1]) + 1
  }

  /** `s.strip()`: what remains of `s` once the white space at both ends is gone;
      it neither starts nor ends with white space, and only white space was removed. */
  function Strip(s: string): (r: string)
    ensures LeadingSpaces(s) + |r| <= |s|
    ensures r == s[LeadingSpaces(s)..LeadingSpaces(s) + |r|]
    ensures forall k :: LeadingSpaces(s) + |r| <= k < |s| ==> IsSpace(s[k])
    ensures r == [] || (!IsSpace(r[0]) && !IsSpace(r[|r| - 1]))
  {
    var i := LeadingSpaces(s);
    var t := s[i..];
    var j := TrailingSpaces(t);
    var r := t[..|t| - j];
    assert forall k :: i + |r| <= k < |s| ==> s[k] == t[k - i];
    r
  }
}
